=== FILE: README.md ===
# Device targeting and Arbor gid lookup of the BSB, in Dafny

This project models two parts of the Brain Scaffold Builder's simulation layer:

- **Target resolution** in `bsb/simulation/targetting.py`:
  - how a device's `targetting` name selects one of the `_targets_*` strategies;
  - the cylinder, cell-type, representatives, by-id and by-label strategies;
  - the target/pattern checkpoint that rank 0 fills and an MPI broadcast replicates;
  - section targeting (`TargetsSections`) on a detailed cell.
- **The gid bookkeeping of the Arbor adapter** in `bsb/simulators/arbor/adapter.py`:
  - `QuickContains` interval membership;
  - `QuickLookup`'s first-match search;
  - the recipe's `num_cells`, `num_sources`, `cell_kind`, `probes` and `cell_description`;
  - `ArborCell.get_description`.

Modules:

- `Wrappers`: `Option` and `Result`.
- `Errors`: the raised exceptions.
- `Seqs`: subsequences, masks, samples, flatten and sums.
- `Network`: cell types, cell models, cell rows, and the scaffold as a read-only provider.
- `Targetting`: neuron target resolution.
- `Checkpoint`: the `get_*` / `initialise_*` checkpoint.
- `Sections`: section targeting.
- `Arbor`: the adapter.

Inputs instead of side effects:

- Randomness is an oracle argument:
  - the draws of `np.random.random_sample`;
  - the indices picked by `random.choice`;
  - the positions drawn by `random.sample`.
  The predicates on these arguments (`ChoicesFit`, `PicksFit`, `SamplesFit`, `IsSample`) say only what those functions guarantee: valid, distinct where required, and of the right length.
- The scaffold is a record of total functions, one per accessor.
- The broadcast is a function that gives every rank the root's value.

Where the code does something other than what it evidently means, the model has two members:

- an "as written" member that follows the code;
- a corrected member.

A lemma relates the two (see Findings).

The model follows the code, including where it departs from its evident intent:

- **Representatives.** The code raises `IndexError` for an eligible type without ids, where skipping that type is evidently meant. `RepresentativesAsWritten` follows the code; `Representatives` skips the type.
- **Cylinder with several declared types.** The multi-type branch has no `return`. With no declared type the strategy returns `None`. With two or more, `np.vstack` of an empty five-column array and a three-column slice raises `ValueError` before the missing return is reached. `CylinderAsWritten` models both cases.
- **Entity types.** The kind reported to Arbor is a spike source for a relay model or an entity type. The description is a spike source only for a relay model. So a non-relay model on an entity type is reported as a spike source and described as a cable cell, which Arbor cannot reconcile. `Arbor.DescriptionAgreesWithKind` and `Arbor.EntityDescriptionFinding` follow the code; `Arbor.CellDescriptionByKind` chooses the description by the reported kind.

## Model

| member | source | states |
|---|---|---|
| Targetting.Initialise | bsb/simulation/targetting.py:7-20 | The strategy is accepted exactly when the class has a member `_targets_<name>`, which happens exactly when the registry lists the name. The chosen handler is the one registered under that name. An unknown name raises `NotImplementedError` naming the strategy and the node. |
| Targetting.RegistryIsTheSixStrategies | bsb/simulation/targetting.py:198 | Stripping `_targets_` from the prefixed members, in definition order, gives exactly local, cylinder, cell_type, representatives, by_id, by_label. |
| Targetting.HasattrAgrees | bsb/simulation/targetting.py:10-13 | `hasattr(self, "_targets_" + name)` holds exactly when the strategy table knows the name, and exactly when the registry lists it. |
| Targetting.CylinderFilterSpec | bsb/simulation/targetting.py:68-79 | The kept ids keep the table order. An id is kept exactly when a cell with that id has squared X/Z distance from `(X/2, Z/2)` strictly below `radius**2`. |
| Targetting.CylinderIgnoresDepth | bsb/simulation/targetting.py:74-76 | Changing only the Y coordinates of the cells changes nothing in the result. |
| Targetting.CylinderAsWritten | bsb/simulation/targetting.py:48-81 | The code returns `None` for no declared type and raises `ValueError` for two or more. For exactly one type it returns the cylinder filter of that type's table. |
| Targetting.Cylinder | bsb/simulation/targetting.py:48-81 | Corrected strategy: always returns targets. They are an order-preserving subsequence of the stacked ids of every declared type, and an id is kept exactly when one of its cells lies in the cylinder. |
| Targetting.CylinderSingleTypeAgrees | bsb/simulation/targetting.py:61-81 | On one declared type, the corrected and the as-written strategy return the same thing. |
| Targetting.CylinderMultiTypeFinding | bsb/simulation/targetting.py:52-60 | For two declared types the code raises, while the corrected strategy returns targets. |
| Targetting.PooledIdsMembers | bsb/simulation/targetting.py:87-104 | The pooled ids are exactly the ids of the declared types. Entity types take their ids from the entity accessor, other types from column 0 of the cell table. |
| Targetting.Threshold | bsb/simulation/targetting.py:109-111 | The threshold is `cell_fraction` when set. Otherwise it is `cell_count / n`, and 1 when no count is set either. |
| Targetting.CellTypeTargets | bsb/simulation/targetting.py:105-119 | The result is always an order-preserving subsequence of the pooled ids, so every target is one of the pooled ids. |
| Targetting.CellTypeSpec | bsb/simulation/targetting.py:105-119 | An empty pool gives an empty result. Threshold 1 gives every pooled id in order; threshold 0 gives none. Any other threshold keeps an id exactly when its draw is at most the threshold. |
| Targetting.CellTypeSaturates | bsb/simulation/targetting.py:109-117 | With draws in [0, 1), a threshold of at least 1 keeps every id and a negative threshold keeps none. |
| Targetting.CellTypeCountBoundaries | bsb/simulation/targetting.py:109-115 | With no fraction, a `cell_count` equal to the population returns all ids and a count of 0 returns none. |
| Targetting.Eligible | bsb/simulation/targetting.py:122-128 | The eligible types keep cell-model order, one entry per cell model. A type is eligible exactly when some model has it, it is not a relay, and it is named in `cell_types` when that is set. An eligible type appears as often as models carry it; an ineligible one never appears. |
| Targetting.ChooseEach | bsb/simulation/targetting.py:130-132 | The comprehension raises `IndexError` exactly when some id list is empty. Otherwise it gives one pick per list, each from that list. |
| Targetting.RepresentativesAsWritten | bsb/simulation/targetting.py:121-133 | Over the configuration, the code raises `IndexError` exactly when some eligible type has no ids. Otherwise it returns one id per eligible type, each from that type's ids. |
| Targetting.RepresentativesFromSpec | bsb/simulation/targetting.py:129-133 | The corrected picks number one per non-empty pool, and the j-th pick lies in the j-th non-empty pool. |
| Targetting.Representatives | bsb/simulation/targetting.py:121-133 | Corrected strategy: one id per eligible type that has ids, taken in increasing model order. Each id belongs to the ids of its eligible (non-relay, selected) type. |
| Targetting.RepresentativesCoverage | bsb/simulation/targetting.py:121-133 | Every eligible type with ids has its representative in the result. |
| Targetting.RepresentativesAgree | bsb/simulation/targetting.py:121-133 | When every eligible type has ids, the code, run over the configuration, returns exactly what the corrected strategy returns. |
| Targetting.RepresentativesEmptyTypeFinding | bsb/simulation/targetting.py:130-132 | An eligible type with no ids makes the code raise `IndexError`. The corrected strategy leaves that type out and returns fewer ids than there are eligible types. |
| Targetting.ById | bsb/simulation/targetting.py:135-136 | The configured `targets` list is returned unchanged. |
| Targetting.Clamp | bsb/simulation/targetting.py:152 | `max(0, min(n, total))`: a count in [0, total] is kept, a negative count becomes 0, and a count above the population becomes the population. |
| Targetting.LabelCount | bsb/simulation/targetting.py:146-152 | The number drawn from a label never exceeds the label's population. |
| Targetting.LabelCountSpec | bsb/simulation/targetting.py:146-152 | With neither setting, the whole label is drawn. A count in [0, total] is drawn exactly, a larger one draws the whole label, and a negative one draws nothing. A fraction draws its ceiling of `fraction * total` clamped into [0, total]; for a fraction in [0, 1] that is the least whole number of members covering `fraction * total`. |
| Targetting.LabelCountAsWritten | bsb/simulation/targetting.py:146-153 | The code's float count raises `TypeError` in `random.sample` exactly when a fraction is set and `0 < ceil(fraction * total) <= total`. Otherwise the integer count is used. |
| Targetting.SamplesFitExists | bsb/simulation/targetting.py:152-153 | The clamped counts always admit a draw without replacement from every label, so the sampling oracle can always be met. |
| Targetting.ByLabel | bsb/simulation/targetting.py:138-154 | Corrected strategy: draws exactly as many ids as the clamped counts add up to, every id a member of one of the expanded labels. The draws are concatenated in label order: label i's draw fills the slice that starts after the counts of labels 0..i-1. |
| Targetting.ByLabelSpec | bsb/simulation/targetting.py:138-154 | The result is as long as the clamped counts added up, and every id belongs to some expanded label. In the result, label i's slice (after the counts of the labels before it) holds exactly its clamped count of ids, never more than the label's population, all members of that label, and pairwise different when the label lists no id twice. |
| Targetting.ByLabelPart | bsb/simulation/targetting.py:143-153 | For one expanded label, its slice of the result holds exactly its clamped count of members of that label, pairwise different when the label has no repeated id. |
| Targetting.ByLabelAsWritten | bsb/simulation/targetting.py:138-154 | The code raises exactly when some expanded label gets a float count. Otherwise it returns the corrected concatenation. |
| Targetting.ByLabelFractionFinding | bsb/simulation/targetting.py:147-153 | Any fraction in (0, 1] on a non-empty label makes the code raise, while the integer count lies in [1, total]. |
| Targetting.ByLabelHalfOfFour | bsb/simulation/targetting.py:147-153 | A fraction of 0.5 on a four-member label raises in the code, where 2 members were meant. |
| Checkpoint.GetTargets | bsb/simulation/targetting.py:156-166 | The getter returns the stored targets when set. Otherwise it raises `ParallelIntegrityError` with the checkpoint message and this rank. |
| Checkpoint.GetPatterns | bsb/simulation/targetting.py:168-178 | The getter returns the stored patterns when set. Otherwise it raises `ParallelIntegrityError` with the checkpoint message and this rank. |
| Checkpoint.Contribution | bsb/simulation/targetting.py:181-184 | Only rank 0 contributes a computed value; every other rank contributes `None`. |
| Checkpoint.Bcast | bsb/simulation/targetting.py:186 | Every rank receives the root's value. |
| Checkpoint.InitialiseTargets | bsb/simulation/targetting.py:180-186 | Every rank stores rank 0's targets and keeps its patterns unchanged. An exception on rank 0 propagates. |
| Checkpoint.InitialisePatterns | bsb/simulation/targetting.py:188-195 | Every rank stores rank 0's patterns and keeps its targets unchanged. An exception on rank 0 propagates. |
| Checkpoint.FreshDeviceRaises | bsb/simulation/targetting.py:156-178 | Before initialisation, both getters raise on every rank, naming that rank. |
| Checkpoint.TargetsReplicated | bsb/simulation/targetting.py:180-186 | After `initialise_targets`, `get_targets` returns rank 0's value on every rank, and `get_patterns` behaves as before. |
| Checkpoint.PatternsReplicated | bsb/simulation/targetting.py:188-195 | After `initialise_patterns`, `get_patterns` returns rank 0's value on every rank, and `get_targets` behaves as before. |
| Checkpoint.CheckpointsIndependent | bsb/simulation/targetting.py:172-186 | Initialising the targets does not satisfy the patterns checkpoint: `get_patterns` still raises with the rank. |
| Checkpoint.ReinitialiseReplaces | bsb/simulation/targetting.py:180-186 | A second `initialise_targets` replaces the first value on every rank. |
| Sections.SectionStrategies | bsb/simulation/targetting.py:205-209 | `_section_target_<name>` exists exactly when the name is `default`. |
| Sections.TargetSection | bsb/simulation/targetting.py:202-210 | An unset strategy counts as `default`. Any other name raises "Unknown section targetting type '<name>'", and `default` applies the default strategy. |
| Sections.CandidatesSpec | bsb/simulation/targetting.py:215-218 | With a `section_type`, the candidates are exactly the cell's sections carrying that label, in order. Without one, they are the soma. |
| Sections.DefaultSections | bsb/simulation/targetting.py:212-221 | "all" returns exactly the candidates. A count k returns k sections (none when k is at most 0), every one a candidate. With no candidates and k > 0 it raises `IndexError`. An unset count means 1. |
| Sections.UnconfiguredTargetsOneSoma | bsb/simulation/targetting.py:202-221 | A device with no section settings targets exactly one soma section, the one its pick selects. |
| Sections.AllOfTypeIsFilter | bsb/simulation/targetting.py:215-220 | `section_count = "all"` with a `section_type` returns exactly the labelled sections, in order, whatever the picks. |
| Arbor.KindOf | bsb/simulators/arbor/adapter.py:67-70 | The kind is a spike source exactly when the model is a relay or the type is an entity; otherwise it is a cable cell. |
| Arbor.MakeContainer | bsb/simulators/arbor/adapter.py:62-74 | A container keeps its model and type. It has one interval per run, starting at the run's start and as long as the run's count. |
| Arbor.ContainsIffSomeHop | bsb/simulators/arbor/adapter.py:71-77 | A gid is in a container exactly when some run `(start, count)` has `start <= gid < start + count`. |
| Arbor.ContainsGid | bsb/simulators/arbor/adapter.py:76-77 | The scan over the intervals answers `gid in container` exactly. |
| Arbor.MakeLookup | bsb/simulators/arbor/adapter.py:80-86 | One container per cell model, in configuration order, over the placement set of the model's name. |
| Arbor.FirstFrom | bsb/simulators/arbor/adapter.py:94-98 | Finds the first position from `k` on whose container holds the gid, or reports that none from `k` on does. |
| Arbor.Lookup | bsb/simulators/arbor/adapter.py:94-98 | Returns the first container holding the gid. Raises `GidLookupError` with the gid exactly when no container holds it. |
| Arbor.LookupFindsOwner | bsb/simulators/arbor/adapter.py:94-96 | When exactly one container holds a gid, the lookup returns that container. |
| Arbor.LookupKind | bsb/simulators/arbor/adapter.py:88-89 | The kind of the container the lookup found, failing exactly when the lookup fails. |
| Arbor.LookupModel | bsb/simulators/arbor/adapter.py:91-92 | The model of the container the lookup found, failing exactly when the lookup fails. |
| Arbor.NumCells | bsb/simulators/arbor/adapter.py:123-136 | The loop's total is the sum of the placement-set sizes over all cell types, and is never negative. |
| Arbor.CellKind | bsb/simulators/arbor/adapter.py:141-142 | `cell_kind(gid)` is `lookup_kind(gid)`: the kind of the first container holding the gid. It raises `GidLookupError` exactly when no container holds it. |
| Arbor.CellKindFromConfiguration | bsb/simulators/arbor/adapter.py:62-98 | For a lookup built from the cell models, `cell_kind` fails exactly when no model's runs cover the gid. Otherwise it is a spike source exactly when the first model whose runs cover the gid is a relay or has an entity placement type. |
| Arbor.NumSources | bsb/simulators/arbor/adapter.py:138-139 | Exactly 1 source for a cable cell and 0 for a spike source. An unknown gid raises `GidLookupError`. |
| Arbor.Probes | bsb/simulators/arbor/adapter.py:148-153 | Exactly one root membrane-voltage probe for a cable cell, none for a spike source. An unknown gid fails. |
| Arbor.SourcesMatchProbes | bsb/simulators/arbor/adapter.py:138-153 | For every gid, the number of sources equals the number of probes. |
| Arbor.CableDescription | bsb/simulators/arbor/adapter.py:39-51 | A cable cell of the model's class whose decor carries the `(root)` spike detector at -10 mV. |
| Arbor.GetDescription | bsb/simulators/arbor/adapter.py:38-51 | A relay model gives a spike source with an empty explicit schedule. Any other model gives a cable cell of its model class, with a spike detector at `(root)` at threshold -10. |
| Arbor.CellDescription | bsb/simulators/arbor/adapter.py:144-146 | The description of the model owning the gid: a spike source exactly when that model is a relay. An unknown gid raises `GidLookupError`. |
| Arbor.DescriptionAgreesWithKind | bsb/simulators/arbor/adapter.py:141-146 | For a lookup built from the configuration, kind and description fail together. When they succeed, they agree unless a non-relay model sits on an entity type. |
| Arbor.EntityDescriptionFinding | bsb/simulators/arbor/adapter.py:38-42 | A non-relay model on an entity placement type that owns the gid is reported as a spike source but described as a cable cell; the description chosen by kind is a spike source. |
| Arbor.CellDescriptionByKind | bsb/simulators/arbor/adapter.py:144-146 | Corrected description: it fails exactly when the lookup fails, with `GidLookupError(gid)`. It is a spike source with an empty schedule exactly when the owning container's kind is a spike source, and otherwise the owning model's cable cell. |
| Arbor.DescriptionByKindAgrees | bsb/simulators/arbor/adapter.py:141-146 | For a lookup built from the configuration, kind and corrected description fail together, and when they succeed the description is a spike source exactly when the kind is. |
| Arbor.DescriptionByKindKeepsTheRest | bsb/simulators/arbor/adapter.py:38-42 | The corrected description equals the code's for every gid whose owner is not a non-relay model on an entity type. |

## Left out

- `_targets_local` (bsb/simulation/targetting.py:22-46): it rests on a KDTree radius query from an external library; only the id mapping is local logic.
- Random number generation: the draws are arguments constrained only by what the generators guarantee; no distribution is modelled.
- The MPI broadcast is a function giving every rank the root's value. Collective semantics, deadlock when rank 0 raises before the broadcast, and concurrency are not modelled.
- Floating point: positions, extents, radius, thresholds and fractions are exact reals, so rounding is not modelled. `np.ceil` is the exact ceiling.
- Ids are integers. The float-to-int cast of numpy arrays is taken as the identity on integral ids.
- `continuity_hop` is not part of this model: the `(start, count)` runs of a placement set are given.
- `CellType.get_ids` is not part of this model: the scaffold field `idsOf` supplies the ids of a type.
- `bsb/objects/cell_type.py` contributes only the `relay` and `entity` flags of a cell type.
- `ArborAdapter.prepare`, `simulate` and `collect_output`, `ArborRecipe.__init__` and `global_properties`: they configure Arbor contexts, biophysical constants and output.
- Arbor.GetDescription: `create_decor` and `_soma_detector` are Arbor API calls, rendered as one placement list. The model class's `cable_cell` factory is stood in for by the model's name.
- Arbor.NumCells: the two `print` calls are left out.
- Targetting.Initialise returns the handler that `initialise` stores. Each strategy is a separate function that takes its configuration as arguments, so binding the handler to `self` is not modelled.
- Sections.TargetSection: the side effect of `hasattr` defaults, where the default is written back onto the device, is not modelled. Only the defaults' effect on the result is.
- Sections.DefaultSections: a `section_count` other than "all" or an integer, which makes `range` raise, is not modelled.
- The case of an attribute that is present but set to `None` is not modelled: an unset optional setting is `None` in the model.

## Findings

| source | as written | input that shows it | evidently intended | confidence | as-written member | corrected member |
|---|---|---|---|---|---|---|
| bsb/simulation/targetting.py:52-60 | The branch for a number of cell types other than one builds stacked arrays but never filters or returns. Its `np.vstack` of a (0, 5) array with an (m, 3) slice raises. | `cell_types = ["a", "b"]` raises `ValueError`; `cell_types = []` returns `None` | The cylinder filter over the cells of every declared type | medium, not executed | Targetting.CylinderMultiTypeFinding | Targetting.Cylinder |
| bsb/simulation/targetting.py:130-132 | The guard `len(target_ids) > 0` tests the list of id lists, so an eligible type with no ids reaches `random.choice([])` | An eligible type whose `get_ids()` is empty raises `IndexError` | Skip types without ids (`len(type_ids) > 0`) | high, not executed | Targetting.RepresentativesEmptyTypeFinding | Targetting.Representatives |
| bsb/simulation/targetting.py:147-153 | `np.ceil` returns a float, which `max(0, min(n, total))` keeps when `0 < ceil <= total`; `random.sample` then rejects the float count | `cell_fraction = 0.5` on a label with 4 members: n = 2.0, `TypeError` | An integer count `ceil(fraction * total)` | high, not executed | Targetting.ByLabelHalfOfFour | Targetting.ByLabel |
| bsb/simulators/arbor/adapter.py:38-42 | `get_description` tests only `self.relay`, while `QuickContains` (lines 67-68) reports `spike_source` for `relay or ps.type.entity` | A non-relay cell model whose placement type has `entity = True` and owns gid g: `cell_kind(g)` is `spike_source`, `cell_description(g)` is a cable cell | Describe a gid by the kind reported for it: entity types as spike sources | medium, not executed | Arbor.EntityDescriptionFinding | Arbor.CellDescriptionByKind |

=== FILE: arbor.dfy ===
/** The gid bookkeeping of the Arbor adapter: which cell model owns a gid, of which kind
    that cell is, and what the recipe reports about it. */
module Arbor {
  import opened Wrappers
  import opened Errors
  import opened Seqs
  import opened Network

  /** `arbor.cell_kind`, as far as the adapter uses it. */
  datatype Kind = SpikeSource | Cable

  /** A run of `count` consecutive gids starting at `start`, as `continuity_hop` yields. */
  datatype Hop = Hop(start: int, count: int)

  /** A placement set: its cell type, its number of cells and its gids as runs. */
  datatype PlacementSet = PlacementSet(cellType: CellType, size: nat, hops: seq<Hop>)

  /** A half-open gid interval `[start, stop)`. */
  datatype Range = Range(start: int, stop: int)

  /** `QuickContains`: a cell model, the type of its placement set, the simulated kind and
      the gid intervals it owns. */
  datatype Container = Container(model: CellModel, cellType: CellType, kind: Kind, ranges: seq<Range>)

  /** Relay models and entity types are simulated as spike sources, everything else as
      cable cells. */
  function KindOf(model: CellModel, cellType: CellType): (k: Kind)
    ensures k == SpikeSource <==> model.relay || cellType.entity
  {
    if model.relay || cellType.entity then SpikeSource else Cable
  }

  /** `QuickContains.__init__`: each run `(start, count)` becomes `[start, start + count)`. */
  function MakeContainer(model: CellModel, ps: PlacementSet): (c: Container)
    ensures c.model == model && c.cellType == ps.cellType
    ensures c.kind == SpikeSource <==> model.relay || ps.cellType.entity
    ensures |c.ranges| == |ps.hops|
    ensures forall i :: 0 <= i < |ps.hops| ==>
              c.ranges[i].start == ps.hops[i].start &&
              c.ranges[i].stop - c.ranges[i].start == ps.hops[i].count
  {
    Container(model, ps.cellType, KindOf(model, ps.cellType),
      seq(|ps.hops|, i requires 0 <= i < |ps.hops| => Range(ps.hops[i].start, ps.hops[i].start + ps.hops[i].count)))
  }

  predicate InRange(r: Range, gid: int)
  {
    r.start <= gid < r.stop
  }

  /** `gid in container`. */
  predicate Contains(c: Container, gid: int)
  {
    exists i :: 0 <= i < |c.ranges| && InRange(c.ranges[i], gid)
  }

  /** A container built from a placement set holds a gid exactly when one of the set's runs
      covers it. */
  lemma ContainsIffSomeHop(model: CellModel, ps: PlacementSet, gid: int)
    ensures Contains(MakeContainer(model, ps), gid) <==>
            exists i :: 0 <= i < |ps.hops| && ps.hops[i].start <= gid < ps.hops[i].start + ps.hops[i].count
  {
    var c := MakeContainer(model, ps);
    if exists i :: 0 <= i < |ps.hops| && ps.hops[i].start <= gid < ps.hops[i].start + ps.hops[i].count {
      var i :| 0 <= i < |ps.hops| && ps.hops[i].start <= gid < ps.hops[i].start + ps.hops[i].count;
      assert InRange(c.ranges[i], gid);
    }
  }

  /** `QuickContains.__contains__`: the `any` over the intervals, scanned in order. */
  method ContainsGid(c: Container, gid: int) returns (found: bool)
    ensures found <==> Contains(c, gid)
  {
    found := false;
    var i := 0;
    while i < |c.ranges| && !found
      invariant 0 <= i <= |c.ranges|
      invariant found ==> Contains(c, gid)
      invariant !found ==> forall j :: 0 <= j < i ==> !InRange(c.ranges[j], gid)
    {
      found := c.ranges[i].start <= gid && gid < c.ranges[i].stop;
      i := i + 1;
    }
  }

  /** `QuickLookup.__init__`: one container per cell model, in configuration order, each
      over the placement set of the model's name. */
  function MakeLookup(models: seq<CellModel>, placementOf: string -> PlacementSet): (r: seq<Container>)
    ensures |r| == |models|
    ensures forall i :: 0 <= i < |models| ==> r[i] == MakeContainer(models[i], placementOf(models[i].name))
  {
    seq(|models|, i requires 0 <= i < |models| => MakeContainer(models[i], placementOf(models[i].name)))
  }

  /** Position of the first container from `k` on that holds `gid`, if any. */
  function FirstFrom(cs: seq<Container>, gid: int, k: nat): (r: Option<nat>)
    requires k <= |cs|
    ensures r.Some? ==> k <= r.value < |cs| && Contains(cs[r.value], gid)
    ensures r.Some? ==> forall j :: k <= j < r.value ==> !Contains(cs[j], gid)
    ensures r.None? ==> forall j :: k <= j < |cs| ==> !Contains(cs[j], gid)
    decreases |cs| - k
  {
    if k == |cs| then None
    else if Contains(cs[k], gid) then Some(k)
    else FirstFrom(cs, gid, k + 1)
  }

  /** `QuickLookup._lookup`: the first container holding `gid`, or `GidLookupError`. */
  function Lookup(cs: seq<Container>, gid: int): (r: Result<Container, Error>)
    ensures r.Failure? <==> forall j :: 0 <= j < |cs| ==> !Contains(cs[j], gid)
    ensures r.Failure? ==> r.error == GidLookupError(gid)
    ensures r.Success? ==> exists i :: 0 <= i < |cs| && cs[i] == r.value && Contains(cs[i], gid) &&
                                       forall j :: 0 <= j < i ==> !Contains(cs[j], gid)
  {
    match FirstFrom(cs, gid, 0)
    case None => Failure(GidLookupError(gid))
    case Some(i) => Success(cs[i])
  }

  /** When only one container holds a gid, the lookup finds that one. */
  lemma LookupFindsOwner(cs: seq<Container>, gid: int, i: nat)
    requires i < |cs| && Contains(cs[i], gid)
    requires forall j :: 0 <= j < |cs| && j != i ==> !Contains(cs[j], gid)
    ensures Lookup(cs, gid) == Success(cs[i])
  {
    var r := Lookup(cs, gid);
    var i' :| 0 <= i' < |cs| && cs[i'] == r.value && Contains(cs[i'], gid) &&
              forall j :: 0 <= j < i' ==> !Contains(cs[j], gid);
    assert i' == i;
  }

  /** `lookup_kind`. */
  function LookupKind(cs: seq<Container>, gid: int): (r: Result<Kind, Error>)
    ensures r.Failure? <==> Lookup(cs, gid).Failure?
    ensures r.Success? ==> r.value == Lookup(cs, gid).value.kind
  {
    match Lookup(cs, gid)
    case Failure(e) => Failure(e)
    case Success(c) => Success(c.kind)
  }

  /** `lookup_model`. */
  function LookupModel(cs: seq<Container>, gid: int): (r: Result<CellModel, Error>)
    ensures r.Failure? <==> Lookup(cs, gid).Failure?
    ensures r.Success? ==> r.value == Lookup(cs, gid).value.model
  {
    match Lookup(cs, gid)
    case Failure(e) => Failure(e)
    case Success(c) => Success(c.model)
  }

  /** The recipe's view of the network: the lookup table, the cell types in network order
      and the placement set of each name. */
  datatype Recipe = Recipe(lookup: seq<Container>, cellTypes: seq<CellType>, placementOf: string -> PlacementSet)

  /** The sizes of the placement sets of the network's cell types, in order. */
  function Sizes(cellTypes: seq<CellType>, placementOf: string -> PlacementSet): (r: seq<int>)
    ensures |r| == |cellTypes|
    ensures forall i :: 0 <= i < |r| ==> r[i] == placementOf(cellTypes[i].name).size
  {
    seq(|cellTypes|, i requires 0 <= i < |cellTypes| => placementOf(cellTypes[i].name).size)
  }

  /** `num_cells`: the placement-set sizes added up over every cell type. */
  method NumCells(recipe: Recipe) returns (s: int)
    ensures s == Sum(Sizes(recipe.cellTypes, recipe.placementOf))
    ensures s >= 0
  {
    var sizes := Sizes(recipe.cellTypes, recipe.placementOf);
    s := 0;
    var i := 0;
    while i < |sizes|
      invariant 0 <= i <= |sizes|
      invariant s == Sum(sizes[..i]) && s >= 0
    {
      SumSnoc(sizes[..i], sizes[i]);
      assert sizes[..i + 1] == sizes[..i] + [sizes[i]];
      s := s + sizes[i];
      i := i + 1;
    }
    assert sizes[..i] == sizes;
  }

  /** `cell_kind`: the kind of the first container holding the gid, or `GidLookupError`
      when none holds it. */
  function CellKind(recipe: Recipe, gid: int): (r: Result<Kind, Error>)
    ensures r == LookupKind(recipe.lookup, gid)
    ensures r.Failure? <==> forall j :: 0 <= j < |recipe.lookup| ==> !Contains(recipe.lookup[j], gid)
    ensures r.Failure? ==> r.error == GidLookupError(gid)
    ensures r.Success? ==> exists i :: 0 <= i < |recipe.lookup| && Contains(recipe.lookup[i], gid)
                                       && (forall j :: 0 <= j < i ==> !Contains(recipe.lookup[j], gid))
                                       && r.value == recipe.lookup[i].kind
  {
    LookupKind(recipe.lookup, gid)
  }

  /** One of the runs of a placement set covers the gid. */
  predicate Covers(ps: PlacementSet, gid: int)
  {
    exists h :: 0 <= h < |ps.hops| && ps.hops[h].start <= gid < ps.hops[h].start + ps.hops[h].count
  }

  /** For a recipe whose lookup is built from the cell models, `cell_kind` fails exactly when
      no model's runs cover the gid, and is a spike source exactly when the first model whose
      runs cover it is a relay or has an entity placement type. */
  lemma CellKindFromConfiguration(models: seq<CellModel>, placementOf: string -> PlacementSet,
                                  cellTypes: seq<CellType>, gid: int)
    ensures var k := CellKind(Recipe(MakeLookup(models, placementOf), cellTypes, placementOf), gid);
            k.Failure? <==> forall j :: 0 <= j < |models| ==> !Covers(placementOf(models[j].name), gid)
    ensures var k := CellKind(Recipe(MakeLookup(models, placementOf), cellTypes, placementOf), gid);
            k.Success? ==> exists i :: 0 <= i < |models| && Covers(placementOf(models[i].name), gid)
                                     && (forall j :: 0 <= j < i ==> !Covers(placementOf(models[j].name), gid))
                                     && (k.value == SpikeSource <==>
                                           models[i].relay || placementOf(models[i].name).cellType.entity)
  {
    var lookup := MakeLookup(models, placementOf);
    forall j | 0 <= j < |models|
      ensures Contains(lookup[j], gid) <==> Covers(placementOf(models[j].name), gid)
    {
      ContainsIffSomeHop(models[j], placementOf(models[j].name), gid);
    }
    var k := CellKind(Recipe(lookup, cellTypes, placementOf), gid);
    if k.Success? {
      var i :| 0 <= i < |lookup| && Contains(lookup[i], gid)
               && (forall j :: 0 <= j < i ==> !Contains(lookup[j], gid))
               && k.value == lookup[i].kind;
      assert Covers(placementOf(models[i].name), gid);
    }
  }

  /** `num_sources`: one spike source (the soma detector) on a cable cell, none otherwise. */
  function NumSources(recipe: Recipe, gid: int): (r: Result<nat, Error>)
    ensures r.Failure? <==> LookupKind(recipe.lookup, gid).Failure?
    ensures r.Failure? ==> r.error == GidLookupError(gid)
    ensures r.Success? ==> r.value <= 1 && (r.value == 1 <==> LookupKind(recipe.lookup, gid).value == Cable)
  {
    match LookupKind(recipe.lookup, gid)
    case Failure(e) => Failure(e)
    case Success(k) => Success(if k == Cable then 1 else 0)
  }

  /** An Arbor probe: the membrane voltage at a locset. */
  datatype Probe = MembraneVoltage(locset: string)

  const Root := "(root)"

  /** `probes`: the root membrane voltage of a cable cell, nothing for a spike source. */
  function Probes(recipe: Recipe, gid: int): (r: Result<seq<Probe>, Error>)
    ensures r.Failure? <==> LookupKind(recipe.lookup, gid).Failure?
    ensures r.Success? && LookupKind(recipe.lookup, gid).value == Cable ==> r.value == [MembraneVoltage(Root)]
    ensures r.Success? && LookupKind(recipe.lookup, gid).value == SpikeSource ==> r.value == []
  {
    match LookupKind(recipe.lookup, gid)
    case Failure(e) => Failure(e)
    case Success(k) => Success(if k == Cable then [MembraneVoltage(Root)] else [])
  }

  /** Every probed cable cell has exactly one source and every spike source neither: the
      recipe's source and probe counts agree gid by gid. */
  lemma SourcesMatchProbes(recipe: Recipe, gid: int)
    ensures NumSources(recipe, gid).Success? <==> Probes(recipe, gid).Success?
    ensures NumSources(recipe, gid).Success? ==> NumSources(recipe, gid).value == |Probes(recipe, gid).value|
  {
  }

  /** An Arbor event schedule given by explicit spike times. */
  datatype Schedule = ExplicitSchedule(times: seq<real>)

  /** Something placed on a cable cell's decor: a spike detector at a locset with a
      threshold in mV. */
  datatype Placement = SpikeDetector(locset: string, threshold: int)

  /** A cell description: a spike source with its schedule, or a cable cell of a model
      class with its decor. */
  datatype Description =
    | SpikeSourceCell(schedule: Schedule)
    | CableCell(modelClass: string, decor: seq<Placement>)

  const DetectorThreshold := -10

  /** `create_decor` and the model class's `cable_cell`: a cable cell of the model's class
      with a spike detector on the soma. */
  function CableDescription(model: CellModel): (d: Description)
    ensures d.CableCell? && d.modelClass == model.name
    ensures SpikeDetector(Root, DetectorThreshold) in d.decor
  {
    CableCell(model.name, [SpikeDetector(Root, DetectorThreshold)])
  }

  /** `ArborCell.get_description`: a relay model is a spike source that never fires by itself;
      any other model is a cable cell of its model class with a soma spike detector. */
  function GetDescription(model: CellModel, gid: int): (d: Description)
    ensures d.SpikeSourceCell? <==> model.relay
    ensures d.SpikeSourceCell? ==> d.schedule.times == []
    ensures d.CableCell? ==> d.modelClass == model.name && SpikeDetector(Root, DetectorThreshold) in d.decor
  {
    if model.relay then SpikeSourceCell(ExplicitSchedule([]))
    else CableDescription(model)
  }

  /** `cell_description`: the description of the model that owns `gid`. */
  function CellDescription(recipe: Recipe, gid: int): (r: Result<Description, Error>)
    ensures r.Failure? <==> LookupModel(recipe.lookup, gid).Failure?
    ensures r.Failure? ==> r.error == GidLookupError(gid)
    ensures r.Success? ==> (r.value.SpikeSourceCell? <==> LookupModel(recipe.lookup, gid).value.relay)
  {
    match LookupModel(recipe.lookup, gid)
    case Failure(e) => Failure(e)
    case Success(m) => Success(GetDescription(m, gid))
  }

  /** For a lookup built from the configuration, the description handed to Arbor is of the
      kind the recipe reports, except for a non-relay model on an entity type: that gid is
      reported as a spike source but described as a cable cell. */
  lemma DescriptionAgreesWithKind(models: seq<CellModel>, placementOf: string -> PlacementSet,
                                  cellTypes: seq<CellType>, gid: int)
    ensures var recipe := Recipe(MakeLookup(models, placementOf), cellTypes, placementOf);
            var k := CellKind(recipe, gid);
            var d := CellDescription(recipe, gid);
            k.Success? <==> d.Success?
    ensures var recipe := Recipe(MakeLookup(models, placementOf), cellTypes, placementOf);
            var k := CellKind(recipe, gid);
            var d := CellDescription(recipe, gid);
            k.Success? ==>
              ((k.value == SpikeSource <==> d.value.SpikeSourceCell?) <==>
               !(Lookup(recipe.lookup, gid).value.cellType.entity && !d.value.SpikeSourceCell?))
  {
    var recipe := Recipe(MakeLookup(models, placementOf), cellTypes, placementOf);
    var r := Lookup(recipe.lookup, gid);
    if r.Success? {
      var i :| 0 <= i < |recipe.lookup| && recipe.lookup[i] == r.value && Contains(recipe.lookup[i], gid) &&
               forall j :: 0 <= j < i ==> !Contains(recipe.lookup[j], gid);
      assert r.value == MakeContainer(models[i], placementOf(models[i].name));
    }
  }

  /** The description chosen by the kind the recipe reports: a gid whose container is a
      spike source (a relay model or an entity type) is described as a spike source that
      never fires by itself, any other gid as its model's cable cell. */
  function CellDescriptionByKind(recipe: Recipe, gid: int): (r: Result<Description, Error>)
    ensures r.Failure? <==> Lookup(recipe.lookup, gid).Failure?
    ensures r.Failure? ==> r.error == GidLookupError(gid)
    ensures r.Success? ==> (r.value.SpikeSourceCell? <==> Lookup(recipe.lookup, gid).value.kind == SpikeSource)
    ensures r.Success? && r.value.SpikeSourceCell? ==> r.value.schedule.times == []
    ensures r.Success? && r.value.CableCell? ==>
              r.value == CableDescription(Lookup(recipe.lookup, gid).value.model)
  {
    match Lookup(recipe.lookup, gid)
    case Failure(e) => Failure(e)
    case Success(c) =>
      if c.kind == SpikeSource then Success(SpikeSourceCell(ExplicitSchedule([])))
      else Success(CableDescription(c.model))
  }

  /** With the description chosen by kind, kind and description fail together and always
      agree, for a lookup built from the configuration. */
  lemma DescriptionByKindAgrees(models: seq<CellModel>, placementOf: string -> PlacementSet,
                                cellTypes: seq<CellType>, gid: int)
    ensures var recipe := Recipe(MakeLookup(models, placementOf), cellTypes, placementOf);
            var k := CellKind(recipe, gid);
            var d := CellDescriptionByKind(recipe, gid);
            && (k.Success? <==> d.Success?)
            && (k.Success? ==> (k.value == SpikeSource <==> d.value.SpikeSourceCell?))
  {
  }

  /** The description chosen by kind is the code's description for every gid except one
      owned by a non-relay model on an entity type. */
  lemma DescriptionByKindKeepsTheRest(models: seq<CellModel>, placementOf: string -> PlacementSet,
                                      cellTypes: seq<CellType>, gid: int)
    ensures var recipe := Recipe(MakeLookup(models, placementOf), cellTypes, placementOf);
            var owner := Lookup(recipe.lookup, gid);
            owner.Success? && !(owner.value.cellType.entity && !owner.value.model.relay) ==>
              CellDescriptionByKind(recipe, gid) == CellDescription(recipe, gid)
  {
    var recipe := Recipe(MakeLookup(models, placementOf), cellTypes, placementOf);
    var r := Lookup(recipe.lookup, gid);
    if r.Success? {
      var i :| 0 <= i < |recipe.lookup| && recipe.lookup[i] == r.value && Contains(recipe.lookup[i], gid) &&
               forall j :: 0 <= j < i ==> !Contains(recipe.lookup[j], gid);
      assert r.value == MakeContainer(models[i], placementOf(models[i].name));
    }
  }

  /** The discrepancy on one model: a non-relay model whose placement type is an entity,
      owning `gid`, is reported to Arbor as a spike source but described as a cable cell;
      the description chosen by kind is a spike source. */
  lemma EntityDescriptionFinding(model: CellModel, ps: PlacementSet, gid: int)
    requires !model.relay && ps.cellType.entity
    requires Covers(ps, gid)
    ensures var recipe := Recipe(MakeLookup([model], name => ps), [ps.cellType], name => ps);
            && CellKind(recipe, gid) == Success(SpikeSource)
            && CellDescription(recipe, gid) == Success(CableDescription(model))
            && CellDescriptionByKind(recipe, gid) == Success(SpikeSourceCell(ExplicitSchedule([])))
  {
    ContainsIffSomeHop(model, ps, gid);
    var lookup := MakeLookup([model], name => ps);
    assert lookup[0] == MakeContainer(model, ps);
    assert Contains(lookup[0], gid);
  }
}

=== FILE: checkpoint.dfy ===
/** The per-device checkpoint of `TargetsNeurons`: targets and patterns stay unset until
    `initialise_targets` / `initialise_patterns` run, rank 0 computes the value and a
    broadcast hands it to every rank, and a getter called too early raises. */
module Checkpoint {
  import opened Wrappers
  import opened Errors

  /** One device on one MPI rank. `None` means the attribute `_targets` / `_patterns` has
      not been set yet; a set attribute may itself hold any value, `None` included. */
  datatype Device<T, P> = Device(rank: nat, targets: Option<T>, patterns: Option<P>)

  /** A device as configured, before either initialisation. */
  function Fresh<T, P>(rank: nat): Device<T, P>
  {
    Device(rank, None, None)
  }

  const TargetsCheckpoint :=
    "MPI process %rank% failed a checkpoint. `initialise_targets` should always be called before `get_targets` on all MPI processes."
  const PatternsCheckpoint :=
    "MPI process %rank% failed a checkpoint. `initialise_patterns` should always be called before `get_patterns` on all MPI processes."

  /** `get_targets`: the stored targets, or a `ParallelIntegrityError` naming this rank. */
  function GetTargets<T, P>(d: Device<T, P>): (r: Result<T, Error>)
    ensures r.Success? <==> d.targets.Some?
    ensures r.Success? ==> r.value == d.targets.value
    ensures r.Failure? ==> r.error == ParallelIntegrityError(TargetsCheckpoint, d.rank)
  {
    match d.targets
    case Some(t) => Success(t)
    case None => Failure(ParallelIntegrityError(TargetsCheckpoint, d.rank))
  }

  /** `get_patterns`: the stored patterns, or a `ParallelIntegrityError` naming this rank. */
  function GetPatterns<T, P>(d: Device<T, P>): (r: Result<P, Error>)
    ensures r.Success? <==> d.patterns.Some?
    ensures r.Success? ==> r.value == d.patterns.value
    ensures r.Failure? ==> r.error == ParallelIntegrityError(PatternsCheckpoint, d.rank)
  {
    match d.patterns
    case Some(p) => Success(p)
    case None => Failure(ParallelIntegrityError(PatternsCheckpoint, d.rank))
  }

  /** What a rank hands to the broadcast: rank 0 its computed value, every other rank `None`
      (the strategy or pattern generator runs on rank 0 only). */
  function Contribution<T>(rank: nat, computed: T): (r: Option<T>)
    ensures r.Some? <==> rank == 0
    ensures r.Some? ==> r.value == computed
  {
    if rank == 0 then Some(computed) else None
  }

  /** `COMM_WORLD.bcast(value, root)`: every rank receives the root's value. */
  function Bcast<T>(locals: seq<T>, root: nat): (r: seq<T>)
    requires root < |locals|
    ensures |r| == |locals|
    ensures forall i :: 0 <= i < |r| ==> r[i] == locals[root]
  {
    seq(|locals|, i requires 0 <= i < |locals| => locals[root])
  }

  /** The devices of one simulation, one per rank, in rank order. */
  predicate WellRanked<T, P>(world: seq<Device<T, P>>)
  {
    forall i :: 0 <= i < |world| ==> world[i].rank == i
  }

  /** The contributions of all ranks to one broadcast. */
  function RankContributions<T, P, V>(world: seq<Device<T, P>>, computed: V): (r: seq<Option<V>>)
    requires |world| > 0 && WellRanked(world)
    ensures |r| == |world| && r[0] == Some(computed)
  {
    seq(|world|, i requires 0 <= i < |world| => Contribution(world[i].rank, computed))
  }

  /** `initialise_targets` on every rank. `computed` is what the strategy gives on rank 0;
      when it raises, the exception leaves rank 0 before the broadcast. */
  function InitialiseTargets<T, P>(world: seq<Device<T, P>>, computed: Result<T, Error>)
    : (r: Result<seq<Device<T, P>>, Error>)
    requires |world| > 0 && WellRanked(world)
    ensures computed.Failure? ==> r == Failure(computed.error)
    ensures computed.Success? ==> r.Success? && |r.value| == |world|
    ensures computed.Success? ==> forall i :: 0 <= i < |world| ==>
              r.value[i] == world[i].(targets := Some(computed.value))
  {
    match computed
    case Failure(e) => Failure(e)
    case Success(t) =>
      var received := Bcast(RankContributions(world, t), 0);
      Success(seq(|world|, i requires 0 <= i < |world| => world[i].(targets := received[i])))
  }

  /** `initialise_patterns` on every rank, with `computed` what `create_patterns` gives on
      rank 0. */
  function InitialisePatterns<T, P>(world: seq<Device<T, P>>, computed: Result<P, Error>)
    : (r: Result<seq<Device<T, P>>, Error>)
    requires |world| > 0 && WellRanked(world)
    ensures computed.Failure? ==> r == Failure(computed.error)
    ensures computed.Success? ==> r.Success? && |r.value| == |world|
    ensures computed.Success? ==> forall i :: 0 <= i < |world| ==>
              r.value[i] == world[i].(patterns := Some(computed.value))
  {
    match computed
    case Failure(e) => Failure(e)
    case Success(p) =>
      var received := Bcast(RankContributions(world, p), 0);
      Success(seq(|world|, i requires 0 <= i < |world| => world[i].(patterns := received[i])))
  }

  /** Before initialisation, both getters raise on every rank, naming that rank. */
  lemma FreshDeviceRaises<T, P>(rank: nat)
    ensures GetTargets(Fresh<T, P>(rank)) == Failure(ParallelIntegrityError(TargetsCheckpoint, rank))
    ensures GetPatterns(Fresh<T, P>(rank)) == Failure(ParallelIntegrityError(PatternsCheckpoint, rank))
  {
  }

  /** After `initialise_targets`, `get_targets` returns rank 0's value on every rank, and the
      patterns checkpoint is as it was. */
  lemma TargetsReplicated<T, P>(world: seq<Device<T, P>>, computed: T)
    requires |world| > 0 && WellRanked(world)
    ensures var r := InitialiseTargets(world, Success(computed));
            r.Success? && WellRanked(r.value) &&
            forall i :: 0 <= i < |world| ==>
              GetTargets(r.value[i]) == Success(computed) &&
              GetPatterns(r.value[i]) == GetPatterns(world[i])
  {
    var r := InitialiseTargets(world, Success(computed));
    forall i | 0 <= i < |world|
      ensures GetTargets(r.value[i]) == Success(computed)
      ensures GetPatterns(r.value[i]) == GetPatterns(world[i])
    {
      assert r.value[i] == world[i].(targets := Some(computed));
    }
  }

  /** After `initialise_patterns`, `get_patterns` returns rank 0's value on every rank, and
      the targets checkpoint is as it was. */
  lemma PatternsReplicated<T, P>(world: seq<Device<T, P>>, computed: P)
    requires |world| > 0 && WellRanked(world)
    ensures var r := InitialisePatterns(world, Success(computed));
            r.Success? && WellRanked(r.value) &&
            forall i :: 0 <= i < |world| ==>
              GetPatterns(r.value[i]) == Success(computed) &&
              GetTargets(r.value[i]) == GetTargets(world[i])
  {
    var r := InitialisePatterns(world, Success(computed));
    forall i | 0 <= i < |world|
      ensures GetPatterns(r.value[i]) == Success(computed)
      ensures GetTargets(r.value[i]) == GetTargets(world[i])
    {
      assert r.value[i] == world[i].(patterns := Some(computed));
    }
  }

  /** Initialising targets leaves every rank's patterns getter raising if it raised before:
      the two checkpoints are independent. */
  lemma CheckpointsIndependent<T, P>(world: seq<Device<T, P>>, computed: T, i: nat)
    requires |world| > 0 && WellRanked(world) && i < |world| && world[i].patterns.None?
    ensures var r := InitialiseTargets(world, Success(computed));
            r.Success? &&
            GetPatterns(r.value[i]) == Failure(ParallelIntegrityError(PatternsCheckpoint, i))
  {
    var r := InitialiseTargets(world, Success(computed));
    assert r.value[i] == world[i].(targets := Some(computed));
  }

  /** A second `initialise_targets` replaces the value of the first on every rank. */
  lemma ReinitialiseReplaces<T, P>(world: seq<Device<T, P>>, first: T, second: T)
    requires |world| > 0 && WellRanked(world)
    ensures var once := InitialiseTargets(world, Success(first));
            once.Success? && |once.value| > 0 && WellRanked(once.value) &&
            var twice := InitialiseTargets(once.value, Success(second));
            twice.Success? && forall i :: 0 <= i < |world| ==> GetTargets(twice.value[i]) == Success(second)
  {
    var once := InitialiseTargets(world, Success(first));
    assert WellRanked(once.value) by {
      forall i | 0 <= i < |world| ensures once.value[i].rank == i {
        assert once.value[i] == world[i].(targets := Some(first));
      }
    }
    TargetsReplicated(once.value, second);
  }
}

=== FILE: network.dfy ===
/** What the targeting code and the simulator adapter read from the network model. */
module Network {

  /** A cell type as the targeting code sees it: its name and the two flags
      (both default to false in the configuration). */
  datatype CellType = CellType(name: string, relay: bool, entity: bool)

  /** A simulator cell model: its name, the cell type it simulates and its own relay flag. */
  datatype CellModel = CellModel(name: string, cellType: CellType, relay: bool)

  /** One row of the per-type cell table: id, type id and soma position. */
  datatype CellRow = CellRow(id: int, typeId: int, x: real, y: real, z: real)

  /** The read-only network provider. Each field is one accessor of the scaffold:
      `cellsOf` is `get_cells_by_type`, `entitiesOf` is `get_entities_by_type`,
      `cellType` is `get_cell_type`, `labelGroups` is `get_labels`, `labelled`
      is the `labels[label]` table, `idsOf` lists the ids of a cell type, and
      `X`, `Z` are the network extents. */
  datatype Scaffold = Scaffold(
    X: real,
    Z: real,
    cellsOf: string -> seq<CellRow>,
    entitiesOf: string -> seq<int>,
    cellType: string -> CellType,
    labelGroups: string -> seq<string>,
    labelled: string -> seq<int>,
    idsOf: string -> seq<int>)

  /** Column 0 of a cell table. */
  function Ids(rows: seq<CellRow>): (r: seq<int>)
    ensures |r| == |rows|
  {
    seq(|rows|, i requires 0 <= i < |rows| => rows[i].id)
  }
}

=== FILE: sections.dfy ===
/** Section resolution of `TargetsSections`: which sections of a cell a device targets. */
module Sections {
  import opened Wrappers
  import opened Errors
  import opened Seqs

  /** A section of a cell morphology with its labels ("dendrites", "soma", ...). */
  datatype Section = Section(id: int, labels: seq<string>)

  /** A detailed cell: all its sections, and the soma sections on their own. */
  datatype MorphoCell = MorphoCell(sections: seq<Section>, soma: seq<Section>)

  /** The configured `section_count`: the string "all" or a number of picks. */
  datatype SectionCount = All | Count(k: int)

  /** The section attributes of a device; `None` is an attribute that was never set. */
  datatype SectionConfig = SectionConfig(
    sectionTargetting: Option<string>,
    sectionType: Option<string>,
    sectionCount: Option<SectionCount>)

  const SectionPrefix := "_section_target_"

  /** The members of `TargetsSections` that `hasattr` can find. */
  const SectionMembers := ["target_section", "_section_target_default"]

  /** The strategy used when none is configured. */
  const DefaultStrategy := "default"

  /** The count used when none is configured. */
  const DefaultCount := Count(1)

  function UnknownSectionMessage(strategy: string): string
  {
    "Unknown section targetting type '" + strategy + "'"
  }

  /** The only section strategy the class defines is `default`. */
  lemma SectionStrategies(strategy: string)
    ensures SectionPrefix + strategy in SectionMembers <==> strategy == DefaultStrategy
  {
    var name := SectionPrefix + strategy;
    assert name[0] == '_';
    assert "target_section"[0] == 't';
    if name == "_section_target_default" {
      assert strategy == name[|SectionPrefix|..];
    }
    if strategy == DefaultStrategy {
      assert name == "_section_target_default";
    }
  }

  /** Marks the sections that carry `name`. */
  function LabelMask(sections: seq<Section>, name: string): (r: seq<bool>)
    ensures |r| == |sections|
  {
    seq(|sections|, i requires 0 <= i < |sections| => name in sections[i].labels)
  }

  /** The sections a device may target on `cell`: those labelled with `section_type`, in
      morphology order, or the soma when no section type is configured. */
  function Candidates(cfg: SectionConfig, cell: MorphoCell): seq<Section>
  {
    match cfg.sectionType
    case Some(t) => Select(cell.sections, LabelMask(cell.sections, t))
    case None => cell.soma
  }

  /** With a section type, the candidates are exactly the labelled sections, in order;
      without one they are the soma. */
  lemma CandidatesSpec(cfg: SectionConfig, cell: MorphoCell)
    ensures cfg.sectionType.None? ==> Candidates(cfg, cell) == cell.soma
    ensures cfg.sectionType.Some? ==> IsSubseq(Candidates(cfg, cell), cell.sections)
    ensures cfg.sectionType.Some? ==> forall s :: s in Candidates(cfg, cell) <==>
              s in cell.sections && cfg.sectionType.value in s.labels
  {
    if cfg.sectionType.Some? {
      var t := cfg.sectionType.value;
      var mask := LabelMask(cell.sections, t);
      SelectIsSubseq(cell.sections, mask);
      forall s ensures s in Candidates(cfg, cell) <==> s in cell.sections && t in s.labels {
        SelectMembers(cell.sections, mask, s);
        if s in cell.sections && t in s.labels {
          var i :| 0 <= i < |cell.sections| && cell.sections[i] == s;
          assert mask[i];
        }
      }
    }
  }

  /** Oracle picks of `random.choice`: one index per requested section, each a valid
      position among `n` candidates whenever there are any. */
  predicate PicksFit(picks: seq<nat>, k: int, n: nat)
  {
    |picks| == (if k > 0 then k else 0) && (n > 0 ==> IndicesBelow(picks, n))
  }

  /** `_section_target_default`: all candidates for "all", otherwise `section_count` picks
      with replacement; picking from no candidates raises `IndexError`. */
  function DefaultSections(cfg: SectionConfig, cell: MorphoCell, picks: seq<nat>)
    : (r: Result<seq<Section>, Error>)
    requires cfg.sectionCount.GetOr(DefaultCount).Count? ==>
               PicksFit(picks, cfg.sectionCount.GetOr(DefaultCount).k, |Candidates(cfg, cell)|)
    ensures cfg.sectionCount.GetOr(DefaultCount) == All ==> r == Success(Candidates(cfg, cell))
    ensures var c := cfg.sectionCount.GetOr(DefaultCount);
            c.Count? ==> (r.Failure? <==> c.k > 0 && |Candidates(cfg, cell)| == 0)
    ensures var c := cfg.sectionCount.GetOr(DefaultCount);
            c.Count? && r.Success? ==> |r.value| == (if c.k > 0 then c.k else 0)
    ensures r.Success? ==> forall s :: s in r.value ==> s in Candidates(cfg, cell)
    ensures r.Failure? ==> r.error == IndexError(EmptyChoice)
  {
    var sections := Candidates(cfg, cell);
    match cfg.sectionCount.GetOr(DefaultCount)
    case All => Success(sections)
    case Count(k) =>
      if k <= 0 then Success([])
      else if |sections| == 0 then Failure(IndexError(EmptyChoice))
      else
        PickSpec(sections, picks);
        Success(Pick(sections, picks))
  }

  /** `target_section`: resolve the configured strategy (default "default") and apply it. */
  function TargetSection(cfg: SectionConfig, cell: MorphoCell, picks: seq<nat>)
    : (r: Result<seq<Section>, Error>)
    requires cfg.sectionCount.GetOr(DefaultCount).Count? ==>
               PicksFit(picks, cfg.sectionCount.GetOr(DefaultCount).k, |Candidates(cfg, cell)|)
    ensures var s := cfg.sectionTargetting.GetOr(DefaultStrategy);
            s != DefaultStrategy ==> r == Failure(UnknownSectionTargetting(UnknownSectionMessage(s)))
    ensures cfg.sectionTargetting.GetOr(DefaultStrategy) == DefaultStrategy ==>
              r == DefaultSections(cfg, cell, picks)
  {
    var strategy := cfg.sectionTargetting.GetOr(DefaultStrategy);
    SectionStrategies(strategy);
    if SectionPrefix + strategy !in SectionMembers then
      Failure(UnknownSectionTargetting(UnknownSectionMessage(strategy)))
    else
      DefaultSections(cfg, cell, picks)
  }

  /** An unconfigured device targets one soma section, chosen by its one pick. */
  lemma UnconfiguredTargetsOneSoma(cell: MorphoCell, pick: nat)
    requires |cell.soma| > 0 && pick < |cell.soma|
    ensures TargetSection(SectionConfig(None, None, None), cell, [pick]) == Success([cell.soma[pick]])
  {
    var cfg := SectionConfig(None, None, None);
    assert Candidates(cfg, cell) == cell.soma;
    assert Pick(cell.soma, [pick]) == [cell.soma[pick]];
  }

  /** Asking for every section of a type returns exactly the sections with that label, in
      morphology order, whatever the picks. */
  lemma AllOfTypeIsFilter(t: string, cell: MorphoCell, picks: seq<nat>)
    ensures var cfg := SectionConfig(None, Some(t), Some(All));
            var r := TargetSection(cfg, cell, picks);
            r.Success? && IsSubseq(r.value, cell.sections) &&
            forall s :: s in r.value <==> s in cell.sections && t in s.labels
  {
    var cfg := SectionConfig(None, Some(t), Some(All));
    CandidatesSpec(cfg, cell);
  }
}

=== FILE: seqs.dfy ===
/** Sequence vocabulary: order-preserving subsequences, masks, index samples and sums. */
module Seqs {

  /** `a` occurs in `b` in the same order, possibly with gaps. */
  predicate IsSubseq<T(==)>(a: seq<T>, b: seq<T>)
    decreases |b|
  {
    if |a| == 0 then true
    else if |b| == 0 then false
    else (a[0] == b[0] && IsSubseq(a[1..], b[1..])) || IsSubseq(a, b[1..])
  }

  /** Every sequence is a subsequence of itself. */
  lemma {:induction false} SubseqRefl<T>(a: seq<T>)
    ensures IsSubseq(a, a)
  {
    if |a| > 0 {
      SubseqRefl(a[1..]);
    }
  }

  /** Every element of a subsequence is an element of the whole. */
  lemma {:induction false} SubseqMembers<T>(a: seq<T>, b: seq<T>)
    requires IsSubseq(a, b)
    ensures forall x :: x in a ==> x in b
    decreases |b|
  {
    if |a| > 0 {
      if a[0] == b[0] && IsSubseq(a[1..], b[1..]) {
        SubseqMembers(a[1..], b[1..]);
        forall x | x in a ensures x in b {
          if x != a[0] {
            assert x in a[1..];
            assert x in b[1..];
          }
        }
      } else {
        SubseqMembers(a, b[1..]);
        forall x | x in a ensures x in b {
          assert x in b[1..];
        }
      }
    }
  }

  /** Number of `true` entries of a mask. */
  function CountTrue(keep: seq<bool>): nat
  {
    if |keep| == 0 then 0 else (if keep[0] then 1 else 0) + CountTrue(keep[1..])
  }

  /** The elements of `xs` whose mask entry is set, in order (numpy's `ids[mask]`). */
  function Select<T>(xs: seq<T>, keep: seq<bool>): (r: seq<T>)
    requires |keep| == |xs|
    ensures |r| == CountTrue(keep)
  {
    if |xs| == 0 then [] else (if keep[0] then [xs[0]] else []) + Select(xs[1..], keep[1..])
  }

  /** A masked selection keeps the input order. */
  lemma {:induction false} SelectIsSubseq<T>(xs: seq<T>, keep: seq<bool>)
    requires |keep| == |xs|
    ensures IsSubseq(Select(xs, keep), xs)
  {
    if |xs| > 0 {
      var rest := Select(xs[1..], keep[1..]);
      SelectIsSubseq(xs[1..], keep[1..]);
      if keep[0] {
        var r := [xs[0]] + rest;
        assert r[1..] == rest;
      } else {
        assert Select(xs, keep) == rest;
      }
    }
  }

  /** `x` is selected exactly when some position holding `x` has its mask entry set. */
  lemma {:induction false} SelectMembers<T>(xs: seq<T>, keep: seq<bool>, x: T)
    requires |keep| == |xs|
    ensures x in Select(xs, keep) <==> exists i :: 0 <= i < |xs| && keep[i] && xs[i] == x
  {
    if |xs| > 0 {
      SelectMembers(xs[1..], keep[1..], x);
      var head: seq<T> := if keep[0] then [xs[0]] else [];
      assert Select(xs, keep) == head + Select(xs[1..], keep[1..]);
      if exists i :: 0 <= i < |xs| && keep[i] && xs[i] == x {
        var i :| 0 <= i < |xs| && keep[i] && xs[i] == x;
        if i > 0 {
          assert keep[1..][i - 1] && xs[1..][i - 1] == x;
        }
      }
      if x in Select(xs[1..], keep[1..]) {
        var i :| 0 <= i < |xs| - 1 && keep[1..][i] && xs[1..][i] == x;
        assert keep[i + 1] && xs[i + 1] == x;
      }
    }
  }

  /** A mask with every entry set selects everything. */
  lemma {:induction false} SelectAll<T>(xs: seq<T>, keep: seq<bool>)
    requires |keep| == |xs|
    requires forall i :: 0 <= i < |keep| ==> keep[i]
    ensures Select(xs, keep) == xs
  {
    if |xs| > 0 {
      SelectAll(xs[1..], keep[1..]);
      assert [xs[0]] + xs[1..] == xs;
    }
  }

  /** A mask with no entry set selects nothing. */
  lemma {:induction false} SelectNone<T>(xs: seq<T>, keep: seq<bool>)
    requires |keep| == |xs|
    requires forall i :: 0 <= i < |keep| ==> !keep[i]
    ensures Select(xs, keep) == []
  {
    if |xs| > 0 {
      SelectNone(xs[1..], keep[1..]);
    }
  }

  /** When the mask treats every occurrence of `x` alike, the selection holds all of them
      or none. */
  lemma {:induction false} SelectUniform<T>(xs: seq<T>, keep: seq<bool>, x: T, b: bool)
    requires |keep| == |xs|
    requires forall i :: 0 <= i < |xs| && xs[i] == x ==> keep[i] == b
    ensures multiset(Select(xs, keep))[x] == (if b then multiset(xs)[x] else 0)
  {
    if |xs| > 0 {
      SelectUniform(xs[1..], keep[1..], x, b);
      var head: seq<T> := if keep[0] then [xs[0]] else [];
      assert Select(xs, keep) == head + Select(xs[1..], keep[1..]);
      assert xs == [xs[0]] + xs[1..];
      assert multiset(xs) == multiset([xs[0]]) + multiset(xs[1..]);
    }
  }

  /** Concatenation of a sequence of sequences (`itertools.chain`). */
  function Flatten<T>(ss: seq<seq<T>>): seq<T>
  {
    if |ss| == 0 then [] else ss[0] + Flatten(ss[1..])
  }

  /** An element of a flattened sequence comes from one of its parts. */
  lemma {:induction false} FlattenMembers<T>(ss: seq<seq<T>>, x: T)
    ensures x in Flatten(ss) <==> exists i :: 0 <= i < |ss| && x in ss[i]
  {
    if |ss| > 0 {
      FlattenMembers(ss[1..], x);
      if exists i :: 0 <= i < |ss| && x in ss[i] {
        var i :| 0 <= i < |ss| && x in ss[i];
        if i > 0 {
          assert x in ss[1..][i - 1];
        }
      }
      if x in Flatten(ss[1..]) {
        var i :| 0 <= i < |ss| - 1 && x in ss[1..][i];
        assert x in ss[i + 1];
      }
    }
  }

  /** Sum of a sequence of integers. */
  function Sum(xs: seq<int>): int
  {
    if |xs| == 0 then 0 else xs[0] + Sum(xs[1..])
  }

  /** The lengths of the parts of a sequence of sequences. */
  function Lengths<T>(ss: seq<seq<T>>): (r: seq<int>)
    ensures |r| == |ss|
  {
    seq(|ss|, i requires 0 <= i < |ss| => |ss[i]|)
  }

  /** A flattened sequence is as long as its parts together. */
  lemma {:induction false} FlattenLength<T>(ss: seq<seq<T>>)
    ensures |Flatten(ss)| == Sum(Lengths(ss))
  {
    if |ss| > 0 {
      FlattenLength(ss[1..]);
      assert Lengths(ss)[1..] == Lengths(ss[1..]);
    }
  }

  /** Part `i` of a flattened sequence sits right after the parts before it. */
  lemma {:induction false} FlattenSlice<T>(ss: seq<seq<T>>, i: nat)
    requires i < |ss|
    ensures 0 <= Sum(Lengths(ss)[..i])
    ensures Sum(Lengths(ss)[..i]) + |ss[i]| <= |Flatten(ss)|
    ensures Flatten(ss)[Sum(Lengths(ss)[..i])..Sum(Lengths(ss)[..i]) + |ss[i]|] == ss[i]
  {
    var rest := Flatten(ss[1..]);
    assert Flatten(ss) == ss[0] + rest;
    if i == 0 {
      assert Lengths(ss)[..0] == [];
    } else {
      FlattenSlice(ss[1..], i - 1);
      assert Lengths(ss)[..i][1..] == Lengths(ss[1..])[..i - 1];
      var o := Sum(Lengths(ss[1..])[..i - 1]);
      assert Sum(Lengths(ss)[..i]) == |ss[0]| + o;
      assert rest[o..o + |ss[i]|] == ss[i];
    }
  }

  /** Adding one element at the end adds its value to the sum. */
  lemma {:induction false} SumSnoc(xs: seq<int>, x: int)
    ensures Sum(xs + [x]) == Sum(xs) + x
  {
    if |xs| == 0 {
      assert xs + [x] == [x];
    } else {
      assert (xs + [x])[1..] == xs[1..] + [x];
      SumSnoc(xs[1..], x);
    }
  }

  /** No value occurs twice. */
  predicate Distinct<T(==)>(s: seq<T>)
  {
    forall i, j :: 0 <= i < j < |s| ==> s[i] != s[j]
  }

  /** Every value is smaller than the ones after it. */
  predicate Increasing(s: seq<int>)
  {
    forall i, j :: 0 <= i < j < |s| ==> s[i] < s[j]
  }

  /** Every index is a valid position of a sequence of length `n`. */
  predicate IndicesBelow(idx: seq<nat>, n: nat)
  {
    forall i :: 0 <= i < |idx| ==> idx[i] < n
  }

  /** A draw without replacement of `k` positions out of `n` (`random.sample`). */
  predicate IsSample(idx: seq<nat>, n: nat, k: nat)
  {
    |idx| == k && Distinct(idx) && IndicesBelow(idx, n)
  }

  /** The elements of `pop` at the given positions, in draw order. */
  function Pick<T>(pop: seq<T>, idx: seq<nat>): (r: seq<T>)
    requires IndicesBelow(idx, |pop|)
    ensures |r| == |idx|
  {
    seq(|idx|, i requires 0 <= i < |idx| => pop[idx[i]])
  }

  /** Picked values come from the population; distinct positions of a duplicate-free
      population give distinct values. */
  lemma PickSpec<T>(pop: seq<T>, idx: seq<nat>)
    requires IndicesBelow(idx, |pop|)
    ensures forall x :: x in Pick(pop, idx) ==> x in pop
    ensures Distinct(idx) && Distinct(pop) ==> Distinct(Pick(pop, idx))
  {
    var r := Pick(pop, idx);
    forall x | x in r ensures x in pop {
      var i :| 0 <= i < |r| && r[i] == x;
      assert r[i] == pop[idx[i]];
    }
  }

  /** The positions 0, 1, ..., k - 1. */
  function Positions(k: nat): (r: seq<nat>)
    ensures |r| == k && forall i :: 0 <= i < k ==> r[i] == i
  {
    seq(k, i requires 0 <= i < k => i as nat)
  }

  /** The first `k` positions form a draw of `k` out of `n` whenever `k <= n`. */
  lemma SampleExists(n: nat, k: nat)
    requires k <= n
    ensures IsSample(Positions(k), n, k)
  {
  }
}

=== FILE: targetting.dfy ===
/** Neuron targeting of a simulation device: strategy dispatch and the strategies
    that turn a device's configuration into a list of target ids. Randomness is
    an explicit oracle argument: the draws of `np.random.random_sample`, the
    indices of `random.choice` and the positions of `random.sample`. */
module Targetting {
  import opened Wrappers
  import opened Errors
  import opened Seqs
  import opened Network

  /** What a strategy hands back: a list of ids, Python's `None`, or an exception. */
  datatype Outcome = Targets(ids: seq<int>) | NoValue | Raised(error: Error)

  // ---------------------------------------------------------------------------
  // Dispatch
  // ---------------------------------------------------------------------------

  /** The six `_targets_*` handlers of a device. */
  datatype Handler =
    | TargetsLocal
    | TargetsCylinder
    | TargetsCellType
    | TargetsRepresentatives
    | TargetsById
    | TargetsByLabel

  const HandlerPrefix := "_targets_"

  /** The members of the targeting class in definition order, as the class body sees
      them when it builds its registry of strategy names. */
  const Members: seq<string> := [
    "initialise",
    "_targets_local",
    "_targets_cylinder",
    "_targets_cell_type",
    "_targets_representatives",
    "_targets_by_id",
    "_targets_by_label",
    "get_targets",
    "get_patterns",
    "initialise_targets",
    "initialise_patterns"
  ]

  /** The strategy name a handler is registered under. */
  function HandlerName(h: Handler): string
  {
    match h
    case TargetsLocal => "local"
    case TargetsCylinder => "cylinder"
    case TargetsCellType => "cell_type"
    case TargetsRepresentatives => "representatives"
    case TargetsById => "by_id"
    case TargetsByLabel => "by_label"
  }

  /** The member name carries the handler prefix. */
  predicate Prefixed(name: string)
  {
    |HandlerPrefix| <= |name| && name[..|HandlerPrefix|] == HandlerPrefix
  }

  /** What one member adds to the registry: its name without the prefix, if prefixed. */
  function Registered(name: string): seq<string>
  {
    if Prefixed(name) then [name[|HandlerPrefix|..]] else []
  }

  /** The registry: the prefixed member names with the prefix cut off, in member order. */
  function RegisteredTypes(names: seq<string>): seq<string>
  {
    if |names| == 0 then [] else Registered(names[0]) + RegisteredTypes(names[1..])
  }

  lemma RegisteredCons(name: string, rest: seq<string>)
    ensures RegisteredTypes([name] + rest) == Registered(name) + RegisteredTypes(rest)
  {
    assert ([name] + rest)[1..] == rest;
  }

  /** A name that does not start with an underscore is not registered. */
  lemma NotPrefixed(name: string)
    requires |name| > 0 && name[0] != '_'
    ensures !Prefixed(name)
  {
    if |HandlerPrefix| <= |name| {
      assert name[..|HandlerPrefix|][0] != HandlerPrefix[0];
    }
  }

  /** A prefixed name registers the strategy name it carries. */
  lemma Strip(strategy: string)
    ensures Registered(HandlerPrefix + strategy) == [strategy]
  {
    var name := HandlerPrefix + strategy;
    assert name[..|HandlerPrefix|] == HandlerPrefix;
    assert name[|HandlerPrefix|..] == strategy;
  }

  /** The handler members are the prefixed strategy names. */
  lemma HandlerMemberNames()
    ensures "_targets_local" == HandlerPrefix + "local"
    ensures "_targets_cylinder" == HandlerPrefix + "cylinder"
    ensures "_targets_cell_type" == HandlerPrefix + "cell_type"
    ensures "_targets_representatives" == HandlerPrefix + "representatives"
    ensures "_targets_by_id" == HandlerPrefix + "by_id"
    ensures "_targets_by_label" == HandlerPrefix + "by_label"
  {
  }

  const PlainMembers: seq<string> := ["get_targets", "get_patterns", "initialise_targets", "initialise_patterns"]

  lemma PlainMembersUnregistered()
    ensures RegisteredTypes(PlainMembers) == []
  {
    NotPrefixed("get_targets");
    NotPrefixed("get_patterns");
    NotPrefixed("initialise_targets");
    NotPrefixed("initialise_patterns");
    RegisteredCons("initialise_patterns", []);
    RegisteredCons("initialise_targets", ["initialise_patterns"]);
    RegisteredCons("get_patterns", ["initialise_targets", "initialise_patterns"]);
    RegisteredCons("get_targets", ["get_patterns", "initialise_targets", "initialise_patterns"]);
  }

  /** Each handler member registers its strategy name. */
  lemma HandlersRegistered()
    ensures Registered("_targets_local") == ["local"]
    ensures Registered("_targets_cylinder") == ["cylinder"]
    ensures Registered("_targets_cell_type") == ["cell_type"]
    ensures Registered("_targets_representatives") == ["representatives"]
    ensures Registered("_targets_by_id") == ["by_id"]
    ensures Registered("_targets_by_label") == ["by_label"]
  {
    HandlerMemberNames();
    Strip("local");
    Strip("cylinder");
    Strip("cell_type");
    Strip("representatives");
    Strip("by_id");
    Strip("by_label");
  }

  /** The registry from position `k` on: member `k`'s entry, then the rest. */
  lemma RegisteredFrom(names: seq<string>, k: nat)
    requires k < |names|
    ensures RegisteredTypes(names[k..]) == Registered(names[k]) + RegisteredTypes(names[k + 1..])
  {
    assert names[k..][1..] == names[k + 1..];
  }

  /** The strategy names, assembled one member at a time. */
  lemma StrategiesAssembled()
    ensures [] + (["local"] + (["cylinder"] + (["cell_type"] + (["representatives"]
            + (["by_id"] + (["by_label"] + [])))))) == Strategies
  {
  }

  /** The registry holds exactly the six documented strategy names, in definition order. */
  lemma RegistryIsTheSixStrategies()
    ensures RegisteredTypes(Members) == Strategies
  {
    assert Members == Members[0..];
    RegisteredFrom(Members, 0);
    RegisteredFrom(Members, 1);
    RegisteredFrom(Members, 2);
    RegisteredFrom(Members, 3);
    RegisteredFrom(Members, 4);
    RegisteredFrom(Members, 5);
    RegisteredFrom(Members, 6);
    assert Members[7..] == PlainMembers;
    PlainMembersUnregistered();
    NotPrefixed("initialise");
    assert Registered("initialise") == [];
    HandlersRegistered();
    StrategiesAssembled();
  }

  /** The closed table of strategy names. */
  function HandlerNamed(name: string): (r: Option<Handler>)
    ensures r.Some? ==> HandlerName(r.value) == name
  {
    if name == "local" then Some(TargetsLocal)
    else if name == "cylinder" then Some(TargetsCylinder)
    else if name == "cell_type" then Some(TargetsCellType)
    else if name == "representatives" then Some(TargetsRepresentatives)
    else if name == "by_id" then Some(TargetsById)
    else if name == "by_label" then Some(TargetsByLabel)
    else None
  }

  /** Equal prefixed names carry equal strategy names. */
  lemma SameStrategy(name: string, strategy: string)
    requires HandlerPrefix + name == HandlerPrefix + strategy
    ensures name == strategy
  {
    assert (HandlerPrefix + name)[|HandlerPrefix|..] == name;
    assert (HandlerPrefix + strategy)[|HandlerPrefix|..] == strategy;
  }

  /** Only the handler members start with an underscore. */
  lemma PlainMembersNoUnderscore()
    ensures forall j :: 0 <= j < |Members| && !(1 <= j <= 6) ==> Members[j][0] != '_'
  {
  }

  /** A member named `_targets_<name>` is one of the six handlers. */
  lemma HasattrSound(name: string)
    requires HandlerPrefix + name in Members
    ensures HandlerNamed(name).Some?
  {
    HandlerMemberNames();
    PlainMembersNoUnderscore();
    var m := HandlerPrefix + name;
    var i :| 0 <= i < |Members| && Members[i] == m;
    assert m[0] == '_';
    if i == 1 { SameStrategy(name, "local"); }
    else if i == 2 { SameStrategy(name, "cylinder"); }
    else if i == 3 { SameStrategy(name, "cell_type"); }
    else if i == 4 { SameStrategy(name, "representatives"); }
    else if i == 5 { SameStrategy(name, "by_id"); }
    else { SameStrategy(name, "by_label"); }
  }

  /** The documented strategy names. */
  const Strategies: seq<string> := ["local", "cylinder", "cell_type", "representatives", "by_id", "by_label"]

  /** The table knows exactly the documented names. */
  lemma TableIsStrategies(name: string)
    ensures name in Strategies <==> HandlerNamed(name).Some?
  {
    if name in Strategies {
      var i :| 0 <= i < 6 && Strategies[i] == name;
    }
  }

  /** Every handler member is `_targets_` followed by a name the table knows. */
  lemma HasattrComplete(name: string)
    requires HandlerNamed(name).Some?
    ensures HandlerPrefix + name in Members
  {
    HandlerMemberNames();
    var m := HandlerPrefix + name;
    if name == "local" { assert m == Members[1]; }
    else if name == "cylinder" { assert m == Members[2]; }
    else if name == "cell_type" { assert m == Members[3]; }
    else if name == "representatives" { assert m == Members[4]; }
    else if name == "by_id" { assert m == Members[5]; }
    else { assert m == Members[6]; }
  }

  /** The class has a member `_targets_<name>` exactly when the table knows `name`,
      which is exactly when the registry lists it. */
  lemma HasattrAgrees(name: string)
    ensures HandlerPrefix + name in Members <==> HandlerNamed(name).Some?
    ensures name in RegisteredTypes(Members) <==> HandlerNamed(name).Some?
  {
    RegistryIsTheSixStrategies();
    TableIsStrategies(name);
    if HandlerPrefix + name in Members {
      HasattrSound(name);
    }
    if HandlerNamed(name).Some? {
      HasattrComplete(name);
    }
  }

  /** The message of the error raised for an unknown strategy. */
  function UnknownStrategyMessage(targetting: string, nodeName: string): string
  {
    "Unimplemented neuron targetting type '" + targetting + "' in " + nodeName
  }

  /** Selects the device's handler for the strategy named `targetting`, failing with an
      error naming the strategy and the configuration node when there is none. */
  function Initialise(targetting: string, nodeName: string): (r: Result<Handler, Error>)
    ensures r.Success? <==> HandlerPrefix + targetting in Members
    ensures r.Success? <==> targetting in RegisteredTypes(Members)
    ensures r.Success? ==> HandlerName(r.value) == targetting
    ensures r.Failure? ==> r.error == NotImplementedError(UnknownStrategyMessage(targetting, nodeName))
  {
    HasattrAgrees(targetting);
    match HandlerNamed(targetting)
    case Some(h) => Success(h)
    case None => Failure(NotImplementedError(UnknownStrategyMessage(targetting, nodeName)))
  }

  // ---------------------------------------------------------------------------
  // Cylinder
  // ---------------------------------------------------------------------------

  /** The projection of a cell on the X/Z plane lies strictly inside the circle of
      `radius` around `(cx, cz)`; the depth coordinate Y plays no part. */
  predicate InCylinder(c: CellRow, cx: real, cz: real, radius: real)
  {
    (c.x - cx) * (c.x - cx) + (c.z - cz) * (c.z - cz) < radius * radius
  }

  function CylinderMask(rows: seq<CellRow>, cx: real, cz: real, radius: real): (m: seq<bool>)
    ensures |m| == |rows|
  {
    seq(|rows|, i requires 0 <= i < |rows| => InCylinder(rows[i], cx, cz, radius))
  }

  /** The ids, in table order, of the cells inside the cylinder. */
  function CylinderFilter(rows: seq<CellRow>, cx: real, cz: real, radius: real): seq<int>
  {
    Select(Ids(rows), CylinderMask(rows, cx, cz, radius))
  }

  /** The cylinder filter keeps table order and keeps an id exactly when a cell with
      that id lies strictly inside the cylinder. */
  lemma CylinderFilterSpec(rows: seq<CellRow>, cx: real, cz: real, radius: real)
    ensures IsSubseq(CylinderFilter(rows, cx, cz, radius), Ids(rows))
    ensures forall x :: x in CylinderFilter(rows, cx, cz, radius)
               <==> exists c :: c in rows && c.id == x && InCylinder(c, cx, cz, radius)
  {
    var ids := Ids(rows);
    var m := CylinderMask(rows, cx, cz, radius);
    SelectIsSubseq(ids, m);
    forall x ensures x in Select(ids, m) <==> exists c :: c in rows && c.id == x && InCylinder(c, cx, cz, radius)
    {
      SelectMembers(ids, m, x);
      if exists c :: c in rows && c.id == x && InCylinder(c, cx, cz, radius) {
        var c :| c in rows && c.id == x && InCylinder(c, cx, cz, radius);
        var i :| 0 <= i < |rows| && rows[i] == c;
        assert m[i] && ids[i] == x;
      }
      if x in Select(ids, m) {
        var i :| 0 <= i < |ids| && m[i] && ids[i] == x;
        assert rows[i] in rows && rows[i].id == x && InCylinder(rows[i], cx, cz, radius);
      }
    }
  }

  /** Moving cells along Y does not change which of them the cylinder targets. */
  lemma CylinderIgnoresDepth(rows: seq<CellRow>, moved: seq<CellRow>, cx: real, cz: real, radius: real)
    requires |moved| == |rows|
    requires forall i :: 0 <= i < |rows| ==> moved[i] == rows[i].(y := moved[i].y)
    ensures CylinderFilter(moved, cx, cz, radius) == CylinderFilter(rows, cx, cz, radius)
  {
    assert Ids(moved) == Ids(rows);
    assert CylinderMask(moved, cx, cz, radius) == CylinderMask(rows, cx, cz, radius);
  }

  /** The message of the `ValueError` from `np.vstack` on arrays of different widths. Only
      the exception class is certain: newer numpy versions append which dimension and
      which array sizes differ. */
  const VStackMismatch := "all the input array dimensions except for the concatenation axis must match exactly"

  /** The cylinder strategy as the code is written. Only the single-type branch
      filters and returns. The other branch has no `return`: with no type it yields
      `None`, and with two or more it stacks three position columns under an empty
      five-column array, which numpy rejects. */
  function CylinderAsWritten(net: Scaffold, cellTypes: seq<string>, radius: real): (r: Outcome)
    ensures r.NoValue? <==> |cellTypes| == 0
    ensures r.Raised? <==> |cellTypes| >= 2
    ensures r.Targets? ==> IsSubseq(r.ids, Ids(net.cellsOf(cellTypes[0])))
    ensures r.Targets? ==> forall x :: x in r.ids <==>
              exists c :: c in net.cellsOf(cellTypes[0]) && c.id == x
                       && InCylinder(c, net.X / 2.0, net.Z / 2.0, radius)
  {
    if |cellTypes| != 1 then
      if |cellTypes| == 0 then NoValue else Raised(ValueError(VStackMismatch))
    else
      var rows := net.cellsOf(cellTypes[0]);
      CylinderFilterSpec(rows, net.X / 2.0, net.Z / 2.0, radius);
      Targets(CylinderFilter(rows, net.X / 2.0, net.Z / 2.0, radius))
  }

  /** The cell tables of the declared types, stacked in declared order. */
  function PooledRows(net: Scaffold, cellTypes: seq<string>): seq<CellRow>
  {
    Flatten(seq(|cellTypes|, i requires 0 <= i < |cellTypes| => net.cellsOf(cellTypes[i])))
  }

  /** The cylinder strategy as evidently intended: the same filter over the stacked
      tables of every declared type. */
  function Cylinder(net: Scaffold, cellTypes: seq<string>, radius: real): (r: Outcome)
    ensures r.Targets?
    ensures IsSubseq(r.ids, Ids(PooledRows(net, cellTypes)))
    ensures forall x :: x in r.ids <==>
              exists c :: c in PooledRows(net, cellTypes) && c.id == x
                       && InCylinder(c, net.X / 2.0, net.Z / 2.0, radius)
  {
    var rows := PooledRows(net, cellTypes);
    CylinderFilterSpec(rows, net.X / 2.0, net.Z / 2.0, radius);
    Targets(CylinderFilter(rows, net.X / 2.0, net.Z / 2.0, radius))
  }

  /** On a single declared type the corrected strategy is the code's own branch. */
  lemma CylinderSingleTypeAgrees(net: Scaffold, cellTypes: seq<string>, radius: real)
    requires |cellTypes| == 1
    ensures Cylinder(net, cellTypes, radius) == CylinderAsWritten(net, cellTypes, radius)
  {
    var parts := seq(|cellTypes|, i requires 0 <= i < |cellTypes| => net.cellsOf(cellTypes[i]));
    assert parts[1..] == [];
    assert Flatten(parts) == parts[0] + Flatten(parts[1..]);
    assert PooledRows(net, cellTypes) == net.cellsOf(cellTypes[0]);
  }

  /** Two declared types: the code raises where the corrected strategy targets the
      cells of both. */
  lemma CylinderMultiTypeFinding(net: Scaffold, a: string, b: string, radius: real)
    ensures CylinderAsWritten(net, [a, b], radius) == Raised(ValueError(VStackMismatch))
    ensures Cylinder(net, [a, b], radius).Targets?
  {
  }

  // ---------------------------------------------------------------------------
  // Cell type
  // ---------------------------------------------------------------------------

  /** Ids of one type: entity types from the entity accessor, other types from
      column 0 of their cell table. */
  function TypeIds(net: Scaffold, t: CellType): seq<int>
  {
    if t.entity then net.entitiesOf(t.name) else Ids(net.cellsOf(t.name))
  }

  /** Ids of all declared types, pooled in declared order. */
  function PooledIds(net: Scaffold, typeNames: seq<string>): seq<int>
  {
    Flatten(seq(|typeNames|, i requires 0 <= i < |typeNames| => TypeIds(net, net.cellType(typeNames[i]))))
  }

  /** An id is pooled exactly when one of the declared types holds it. */
  lemma PooledIdsMembers(net: Scaffold, typeNames: seq<string>, x: int)
    ensures x in PooledIds(net, typeNames)
        <==> exists i :: 0 <= i < |typeNames| && x in TypeIds(net, net.cellType(typeNames[i]))
  {
    var parts := seq(|typeNames|, i requires 0 <= i < |typeNames| => TypeIds(net, net.cellType(typeNames[i])));
    FlattenMembers(parts, x);
    if exists i :: 0 <= i < |typeNames| && x in TypeIds(net, net.cellType(typeNames[i])) {
      var i :| 0 <= i < |typeNames| && x in TypeIds(net, net.cellType(typeNames[i]));
      assert x in parts[i];
    }
  }

  /** The acceptance threshold of the thinning: `cell_fraction` when set, otherwise
      `cell_count / n`, where an unset count counts as `n`. */
  function Threshold(n: nat, fraction: Option<real>, count: Option<int>): (t: real)
    requires n > 0
    ensures fraction.Some? ==> t == fraction.value
    ensures fraction.None? && count.None? ==> t == 1.0
    ensures fraction.None? && count.Some? ==> t * (n as real) == count.value as real
  {
    match fraction
    case Some(f) => f
    case None =>
      assert (n as real) / (n as real) == 1.0 by {
        assert (n as real) * (1.0 / (n as real)) == 1.0;
      }
      (count.GetOr(n) as real) / (n as real)
  }

  /** Which ids pass: a draw at most the threshold. */
  function DrawMask(draws: seq<real>, threshold: real): (m: seq<bool>)
    ensures |m| == |draws|
  {
    seq(|draws|, i requires 0 <= i < |draws| => draws[i] <= threshold)
  }

  /** The cell-type strategy. `draws` are the `n` uniform draws in [0, 1) that the
      thinning compares with the threshold, one per pooled id. */
  function CellTypeTargets(net: Scaffold, typeNames: seq<string>, fraction: Option<real>,
                           count: Option<int>, draws: seq<real>): (r: seq<int>)
    requires |draws| == |PooledIds(net, typeNames)|
    ensures IsSubseq(r, PooledIds(net, typeNames))
    ensures forall x :: x in r ==> x in PooledIds(net, typeNames)
  {
    var ids := PooledIds(net, typeNames);
    var n := |ids|;
    if n != 0 then
      var threshold := Threshold(n, fraction, count);
      if threshold == 1.0 then
        SubseqRefl(ids);
        ids
      else if threshold == 0.0 then
        []
      else
        SelectIsSubseq(ids, DrawMask(draws, threshold));
        SubseqMembers(Select(ids, DrawMask(draws, threshold)), ids);
        Select(ids, DrawMask(draws, threshold))
    else
      []
  }

  /** An empty population gives nothing; threshold 1 gives every pooled id in order;
      threshold 0 gives nothing; any other threshold keeps an id exactly when some
      position holding it drew at most the threshold. */
  lemma CellTypeSpec(net: Scaffold, typeNames: seq<string>, fraction: Option<real>,
                     count: Option<int>, draws: seq<real>)
    requires |draws| == |PooledIds(net, typeNames)|
    ensures var ids := PooledIds(net, typeNames);
            var r := CellTypeTargets(net, typeNames, fraction, count, draws);
            && (|ids| == 0 ==> r == [])
            && (|ids| > 0 && Threshold(|ids|, fraction, count) == 1.0 ==> r == ids)
            && (|ids| > 0 && Threshold(|ids|, fraction, count) == 0.0 ==> r == [])
    ensures var ids := PooledIds(net, typeNames);
            var r := CellTypeTargets(net, typeNames, fraction, count, draws);
            |ids| > 0 && Threshold(|ids|, fraction, count) != 1.0 && Threshold(|ids|, fraction, count) != 0.0 ==>
              forall x :: x in r <==>
                exists i :: 0 <= i < |ids| && ids[i] == x && draws[i] <= Threshold(|ids|, fraction, count)
  {
    var ids := PooledIds(net, typeNames);
    if |ids| > 0 {
      var t := Threshold(|ids|, fraction, count);
      if t != 1.0 && t != 0.0 {
        var r := CellTypeTargets(net, typeNames, fraction, count, draws);
        forall x ensures x in r <==> exists i :: 0 <= i < |ids| && ids[i] == x && draws[i] <= t {
          SelectMembers(ids, DrawMask(draws, t), x);
        }
      }
    }
  }

  /** With draws in [0, 1), as `random_sample` returns, a threshold above 1 (a
      `cell_count` larger than the population) keeps every id and a negative one
      keeps none. */
  lemma CellTypeSaturates(net: Scaffold, typeNames: seq<string>, fraction: Option<real>,
                          count: Option<int>, draws: seq<real>)
    requires |draws| == |PooledIds(net, typeNames)|
    requires forall i :: 0 <= i < |draws| ==> 0.0 <= draws[i] < 1.0
    ensures var ids := PooledIds(net, typeNames);
            var r := CellTypeTargets(net, typeNames, fraction, count, draws);
            |ids| > 0 ==>
              && (Threshold(|ids|, fraction, count) >= 1.0 ==> r == ids)
              && (Threshold(|ids|, fraction, count) < 0.0 ==> r == [])
  {
    var ids := PooledIds(net, typeNames);
    if |ids| > 0 {
      var t := Threshold(|ids|, fraction, count);
      if t > 1.0 {
        SelectAll(ids, DrawMask(draws, t));
      } else if t < 0.0 {
        SelectNone(ids, DrawMask(draws, t));
      }
    }
  }

  /** A `cell_count` equal to the population, with no fraction set, targets every
      pooled id in order; a count of 0 targets none. */
  lemma CellTypeCountBoundaries(net: Scaffold, typeNames: seq<string>, draws: seq<real>)
    requires |draws| == |PooledIds(net, typeNames)|
    ensures CellTypeTargets(net, typeNames, None, Some(|draws|), draws) == PooledIds(net, typeNames)
    ensures CellTypeTargets(net, typeNames, None, Some(0), draws) == []
  {
    var n := |PooledIds(net, typeNames)|;
    if n > 0 {
      assert Threshold(n, None, Some(n)) == (n as real) / (n as real) == 1.0;
      assert Threshold(n, None, Some(0)) == 0.0 / (n as real) == 0.0;
    }
  }

  // ---------------------------------------------------------------------------
  // Representatives
  // ---------------------------------------------------------------------------

  /** Cell types of the simulation's cell models, in model order. */
  function ModelTypes(models: seq<CellModel>): (r: seq<CellType>)
    ensures |r| == |models|
  {
    seq(|models|, i requires 0 <= i < |models| => models[i].cellType)
  }

  /** A type may be represented: it is not a relay, and it is named in `only` when
      the device declares cell types. */
  predicate IsEligible(t: CellType, only: Option<seq<string>>)
  {
    !t.relay && (only.None? || t.name in only.value)
  }

  function EligibleMask(types: seq<CellType>, only: Option<seq<string>>): (m: seq<bool>)
    ensures |m| == |types|
  {
    seq(|types|, i requires 0 <= i < |types| => IsEligible(types[i], only))
  }

  /** The types eligible for a representative, in cell-model order. */
  function Eligible(models: seq<CellModel>, only: Option<seq<string>>): (r: seq<CellType>)
    ensures IsSubseq(r, ModelTypes(models))
    ensures forall t :: t in r <==> (exists m :: m in models && m.cellType == t) && IsEligible(t, only)
    ensures forall t :: multiset(r)[t] == (if IsEligible(t, only) then multiset(ModelTypes(models))[t] else 0)
  {
    var types := ModelTypes(models);
    var mask := EligibleMask(types, only);
    SelectIsSubseq(types, mask);
    forall t ensures multiset(Select(types, mask))[t] == (if IsEligible(t, only) then multiset(types)[t] else 0) {
      SelectUniform(types, mask, t, IsEligible(t, only));
    }
    forall t ensures t in Select(types, mask) <==> (exists m :: m in models && m.cellType == t) && IsEligible(t, only) {
      SelectMembers(types, mask, t);
      if exists m :: m in models && m.cellType == t {
        var m :| m in models && m.cellType == t;
        var i :| 0 <= i < |models| && models[i] == m;
        assert types[i] == t;
      }
    }
    Select(types, mask)
  }

  /** The id list of each eligible type. */
  function Pools(net: Scaffold, types: seq<CellType>): (r: seq<seq<int>>)
    ensures |r| == |types|
    ensures forall i :: 0 <= i < |types| ==> r[i] == net.idsOf(types[i].name)
  {
    seq(|types|, i requires 0 <= i < |types| => net.idsOf(types[i].name))
  }

  /** The `random.choice` oracle: one index per pool, valid for every non-empty pool. */
  predicate ChoicesFit(pools: seq<seq<int>>, picks: seq<nat>)
  {
    |picks| == |pools| && forall i :: 0 <= i < |pools| && |pools[i]| > 0 ==> picks[i] < |pools[i]|
  }

  /** The comprehension as the code is written: the guard tests the list of pools, not
      each pool, so an empty pool reaches `random.choice` and raises. */
  function ChooseEach(pools: seq<seq<int>>, picks: seq<nat>): (r: Outcome)
    requires ChoicesFit(pools, picks)
    ensures r.Raised? <==> exists i :: 0 <= i < |pools| && |pools[i]| == 0
    ensures r.Raised? ==> r.error == IndexError(EmptyChoice)
    ensures r.Targets? ==> |r.ids| == |pools| && forall i :: 0 <= i < |pools| ==> r.ids[i] in pools[i]
    ensures !r.NoValue?
  {
    if exists i :: 0 <= i < |pools| && |pools[i]| == 0 then
      Raised(IndexError(EmptyChoice))
    else
      Targets(seq(|pools|, i requires 0 <= i < |pools| => pools[i][picks[i]]))
  }

  /** Positions, from `k` on and in increasing order, of the non-empty pools. */
  function NonEmptyFrom(pools: seq<seq<int>>, k: nat): (r: seq<nat>)
    requires k <= |pools|
    ensures |r| <= |pools| - k
    ensures forall j :: 0 <= j < |r| ==> k <= r[j] < |pools| && |pools[r[j]]| > 0
    decreases |pools| - k
  {
    if k == |pools| then []
    else (if |pools[k]| > 0 then [k] else []) + NonEmptyFrom(pools, k + 1)
  }

  /** Every non-empty pool from `k` on is listed. */
  lemma {:induction false} NonEmptyComplete(pools: seq<seq<int>>, k: nat, i: nat)
    requires k <= i < |pools| && |pools[i]| > 0
    ensures i in NonEmptyFrom(pools, k)
    decreases |pools| - k
  {
    if k < i {
      NonEmptyComplete(pools, k + 1, i);
    }
  }

  /** The listed positions increase. */
  lemma {:induction false} NonEmptyIncreasing(pools: seq<seq<int>>, k: nat)
    requires k <= |pools|
    ensures Increasing(NonEmptyFrom(pools, k))
    decreases |pools| - k
  {
    if k < |pools| {
      NonEmptyIncreasing(pools, k + 1);
      var rest := NonEmptyFrom(pools, k + 1);
      assert Increasing(rest);
      if |pools[k]| > 0 {
        var r := [k] + rest;
        assert NonEmptyFrom(pools, k) == r;
        forall j, j' | 0 <= j < j' < |r| ensures r[j] < r[j'] {
          assert r[j'] == rest[j' - 1];
          assert k + 1 <= rest[j' - 1];
          if j > 0 {
            assert r[j] == rest[j - 1];
            assert rest[j - 1] < rest[j' - 1];
          } else {
            assert r[j] == k;
          }
        }
      } else {
        assert NonEmptyFrom(pools, k) == rest;
      }
    }
  }

  /** An empty pool from `k` on leaves fewer non-empty positions than positions. */
  lemma {:induction false} NonEmptyShorter(pools: seq<seq<int>>, k: nat, i: nat)
    requires k <= i < |pools| && |pools[i]| == 0
    ensures |NonEmptyFrom(pools, k)| < |pools| - k
    decreases |pools| - k
  {
    if k < i {
      NonEmptyShorter(pools, k + 1, i);
    }
  }

  /** One pick from each non-empty pool from `k` on, in pool order. */
  function RepresentativesFrom(pools: seq<seq<int>>, picks: seq<nat>, k: nat): seq<int>
    requires ChoicesFit(pools, picks) && k <= |pools|
    decreases |pools| - k
  {
    if k == |pools| then []
    else
      (if |pools[k]| > 0 then [pools[k][picks[k]]] else []) + RepresentativesFrom(pools, picks, k + 1)
  }

  /** There is one pick per non-empty pool. */
  lemma {:induction false} RepresentativesFromLength(pools: seq<seq<int>>, picks: seq<nat>, k: nat)
    requires ChoicesFit(pools, picks) && k <= |pools|
    ensures |RepresentativesFrom(pools, picks, k)| == |NonEmptyFrom(pools, k)|
    decreases |pools| - k
  {
    if k < |pools| {
      RepresentativesFromLength(pools, picks, k + 1);
    }
  }

  /** The j-th pick comes from the j-th non-empty pool. */
  lemma {:induction false} RepresentativesFromSpec(pools: seq<seq<int>>, picks: seq<nat>, k: nat)
    requires ChoicesFit(pools, picks) && k <= |pools|
    ensures |RepresentativesFrom(pools, picks, k)| == |NonEmptyFrom(pools, k)|
    ensures forall j :: 0 <= j < |RepresentativesFrom(pools, picks, k)| ==>
              RepresentativesFrom(pools, picks, k)[j] in pools[NonEmptyFrom(pools, k)[j]]
    decreases |pools| - k
  {
    RepresentativesFromLength(pools, picks, k);
    if k < |pools| {
      RepresentativesFromSpec(pools, picks, k + 1);
      var rest := RepresentativesFrom(pools, picks, k + 1);
      var ne := NonEmptyFrom(pools, k + 1);
      if |pools[k]| > 0 {
        var r := [pools[k][picks[k]]] + rest;
        var ne' := [k] + ne;
        assert RepresentativesFrom(pools, picks, k) == r;
        assert NonEmptyFrom(pools, k) == ne';
        forall j | 0 <= j < |r| ensures r[j] in pools[ne'[j]] {
          if j > 0 {
            assert r[j] == rest[j - 1];
            assert ne'[j] == ne[j - 1];
          }
        }
      } else {
        assert RepresentativesFrom(pools, picks, k) == rest;
        assert NonEmptyFrom(pools, k) == ne;
      }
    }
  }

  /** Representatives as evidently intended: each eligible type with ids contributes
      exactly one of its ids, in cell-model order; relay types, types not named in
      `only`, and types without ids contribute nothing. */
  function Representatives(net: Scaffold, models: seq<CellModel>, only: Option<seq<string>>,
                           picks: seq<nat>): (r: seq<int>)
    requires ChoicesFit(Pools(net, Eligible(models, only)), picks)
    ensures var types := Eligible(models, only);
            var contributing := NonEmptyFrom(Pools(net, types), 0);
            && |r| == |contributing|
            && Increasing(contributing)
            && forall j :: 0 <= j < |r| ==>
                 IsEligible(types[contributing[j]], only)
                 && r[j] in net.idsOf(types[contributing[j]].name)
  {
    var types := Eligible(models, only);
    var pools := Pools(net, types);
    RepresentativesFromSpec(pools, picks, 0);
    NonEmptyIncreasing(pools, 0);
    var contributing := NonEmptyFrom(pools, 0);
    assert forall j :: 0 <= j < |contributing| ==> types[contributing[j]] in types;
    RepresentativesFrom(pools, picks, 0)
  }

  /** Every eligible type that has ids gets its representative. */
  lemma RepresentativesCoverage(net: Scaffold, models: seq<CellModel>, only: Option<seq<string>>,
                                picks: seq<nat>, i: nat)
    requires ChoicesFit(Pools(net, Eligible(models, only)), picks)
    requires i < |Eligible(models, only)| && |net.idsOf(Eligible(models, only)[i].name)| > 0
    ensures exists j :: 0 <= j < |Representatives(net, models, only, picks)|
                     && NonEmptyFrom(Pools(net, Eligible(models, only)), 0)[j] == i
  {
    var pools := Pools(net, Eligible(models, only));
    NonEmptyComplete(pools, 0, i);
    RepresentativesFromSpec(pools, picks, 0);
  }

  /** With every pool non-empty, the picks are taken one per pool, in pool order. */
  lemma {:induction false} RepresentativesAllFrom(pools: seq<seq<int>>, picks: seq<nat>, k: nat)
    requires ChoicesFit(pools, picks) && k <= |pools|
    requires forall i :: 0 <= i < |pools| ==> |pools[i]| > 0
    ensures RepresentativesFrom(pools, picks, k)
         == seq(|pools| - k, j requires 0 <= j < |pools| - k => pools[k + j][picks[k + j]])
    decreases |pools| - k
  {
    if k < |pools| {
      RepresentativesAllFrom(pools, picks, k + 1);
      var tail := seq(|pools| - (k + 1), j requires 0 <= j < |pools| - (k + 1) => pools[k + 1 + j][picks[k + 1 + j]]);
      var whole := seq(|pools| - k, j requires 0 <= j < |pools| - k => pools[k + j][picks[k + j]]);
      assert whole == [pools[k][picks[k]]] + tail;
    }
  }

  /** Representatives as the code is written, over the configuration: one `random.choice`
      per eligible type, raising when some eligible type has no ids. */
  function RepresentativesAsWritten(net: Scaffold, models: seq<CellModel>, only: Option<seq<string>>,
                                    picks: seq<nat>): (r: Outcome)
    requires ChoicesFit(Pools(net, Eligible(models, only)), picks)
    ensures var types := Eligible(models, only);
            r.Raised? <==> exists i :: 0 <= i < |types| && |net.idsOf(types[i].name)| == 0
    ensures r.Raised? ==> r.error == IndexError(EmptyChoice)
    ensures var types := Eligible(models, only);
            r.Targets? ==> |r.ids| == |types| && forall i :: 0 <= i < |types| ==> r.ids[i] in net.idsOf(types[i].name)
    ensures !r.NoValue?
  {
    ChooseEach(Pools(net, Eligible(models, only)), picks)
  }

  /** Where no eligible type is empty, the corrected strategy returns what the code returns. */
  lemma RepresentativesAgree(net: Scaffold, models: seq<CellModel>, only: Option<seq<string>>, picks: seq<nat>)
    requires ChoicesFit(Pools(net, Eligible(models, only)), picks)
    requires forall i :: 0 <= i < |Eligible(models, only)| ==> |net.idsOf(Eligible(models, only)[i].name)| > 0
    ensures RepresentativesAsWritten(net, models, only, picks) == Targets(Representatives(net, models, only, picks))
  {
    RepresentativesAllFrom(Pools(net, Eligible(models, only)), picks, 0);
  }

  /** An eligible type without ids makes the code raise, while the corrected strategy
      skips it and returns fewer representatives than there are eligible types. */
  lemma RepresentativesEmptyTypeFinding(net: Scaffold, models: seq<CellModel>, only: Option<seq<string>>,
                                        picks: seq<nat>, i: nat)
    requires ChoicesFit(Pools(net, Eligible(models, only)), picks)
    requires i < |Eligible(models, only)| && net.idsOf(Eligible(models, only)[i].name) == []
    ensures RepresentativesAsWritten(net, models, only, picks) == Raised(IndexError(EmptyChoice))
    ensures i !in NonEmptyFrom(Pools(net, Eligible(models, only)), 0)
    ensures |Representatives(net, models, only, picks)| < |Eligible(models, only)|
  {
    var pools := Pools(net, Eligible(models, only));
    RepresentativesFromSpec(pools, picks, 0);
    NonEmptyShorter(pools, 0, i);
  }

  // ---------------------------------------------------------------------------
  // By id and by label
  // ---------------------------------------------------------------------------

  /** The by-id strategy: the configured `targets`, untouched. */
  function ById(targets: seq<int>): (r: Outcome)
    ensures r.Targets? && r.ids == targets
  {
    Targets(targets)
  }

  /** Smallest integer at least `x`. */
  function Ceil(x: real): (c: int)
    ensures c as real - 1.0 < x <= c as real
  {
    -((-x).Floor)
  }

  /** `max(0, min(n, total))`. */
  function Clamp(n: int, total: nat): (r: nat)
    ensures r <= total
    ensures 0 <= n <= total ==> r == n
    ensures n < 0 ==> r == 0
    ensures n > total ==> r == total
  {
    if n < 0 then 0 else if n > total then total else n
  }

  /** How many members of one label are drawn, as an integer. */
  function LabelCount(fraction: Option<real>, count: Option<int>, total: nat): (n: nat)
    ensures n <= total
  {
    var wanted := match fraction
      case Some(f) => Ceil(f * total as real)
      case None => count.GetOr(total);
    Clamp(wanted, total)
  }

  /** The count rules: no setting draws the whole label, a count beyond the population
      draws the whole label, a negative count draws nothing, and a fraction in [0, 1]
      draws the least whole number of members covering that fraction. */
  lemma LabelCountSpec(fraction: Option<real>, count: Option<int>, total: nat)
    ensures fraction.None? && count.None? ==> LabelCount(fraction, count, total) == total
    ensures fraction.None? && count.Some? && count.value >= total ==> LabelCount(fraction, count, total) == total
    ensures fraction.None? && count.Some? && count.value < 0 ==> LabelCount(fraction, count, total) == 0
    ensures fraction.None? && count.Some? && 0 <= count.value <= total ==> LabelCount(fraction, count, total) == count.value
    ensures fraction.Some? && Ceil(fraction.value * total as real) < 0 ==> LabelCount(fraction, count, total) == 0
    ensures fraction.Some? && Ceil(fraction.value * total as real) > total ==> LabelCount(fraction, count, total) == total
    ensures fraction.Some? && 0 <= Ceil(fraction.value * total as real) <= total ==>
              LabelCount(fraction, count, total) == Ceil(fraction.value * total as real)
    ensures fraction.Some? && 0.0 <= fraction.value <= 1.0 ==>
              var n := LabelCount(fraction, count, total);
              n as real - 1.0 < fraction.value * total as real <= n as real
  {
    if fraction.Some? && 0.0 <= fraction.value <= 1.0 {
      FractionCeilWithin(fraction.value, total);
    }
  }

  /** The ceiling of a fraction in [0, 1] of a population lies between 0 and the population. */
  lemma FractionCeilWithin(f: real, total: nat)
    requires 0.0 <= f <= 1.0
    ensures 0 <= Ceil(f * total as real) <= total
  {
    FractionOfTotal(f, total);
    CeilWithin(f * total as real, total);
  }

  /** The ceiling of a real between 0 and a population lies between 0 and the population. */
  lemma CeilWithin(x: real, total: nat)
    requires 0.0 <= x <= total as real
    ensures 0 <= Ceil(x) <= total
  {
    var c := Ceil(x);
    assert (c as real) < (total as real) + 1.0;
    assert c as real > -1.0;
  }

  /** A fraction in [0, 1] of a population lies between 0 and the population. */
  lemma FractionOfTotal(f: real, total: nat)
    requires 0.0 <= f <= 1.0
    ensures 0.0 <= f * total as real <= total as real
  {
    assert (1.0 - f) * total as real >= 0.0;
  }

  /** The message of the `TypeError` a float count provokes. Only the exception class is
      certain: the wording depends on the numpy version (newer versions report that a
      'numpy.float64' object cannot be interpreted as an integer). */
  const FloatCountMessage := "can't multiply sequence by non-int of type 'numpy.float64'"

  /** The count as the code computes it: `np.ceil` yields a float, and it survives the
      clamp whenever `0 < ceil(fraction * total) <= total`; `random.sample` then
      rejects the float count. */
  function LabelCountAsWritten(fraction: Option<real>, count: Option<int>, total: nat): (r: Result<nat, Error>)
    ensures r.Failure? <==> fraction.Some? && 0 < Ceil(fraction.value * total as real) <= total
    ensures r.Failure? ==> r.error == TypeError(FloatCountMessage)
    ensures r.Success? ==> r.value == LabelCount(fraction, count, total)
  {
    if fraction.Some? && 0 < Ceil(fraction.value * total as real) <= total then
      Failure(TypeError(FloatCountMessage))
    else
      Success(LabelCount(fraction, count, total))
  }

  /** The declared labels expanded to the label groups they stand for, in order. */
  function ExpandLabels(net: Scaffold, labels: seq<string>): seq<string>
  {
    Flatten(seq(|labels|, i requires 0 <= i < |labels| => net.labelGroups(labels[i])))
  }

  /** The `random.sample` oracle: for each expanded label, a draw without replacement
      of that label's count out of its members. */
  predicate SamplesFit(net: Scaffold, expanded: seq<string>, fraction: Option<real>,
                       count: Option<int>, samples: seq<seq<nat>>)
  {
    && |samples| == |expanded|
    && forall i :: 0 <= i < |expanded| ==>
         var total := |net.labelled(expanded[i])|;
         IsSample(samples[i], total, LabelCount(fraction, count, total))
  }

  /** The oracle can always be met: taking the first positions of every label is a draw
      without replacement of that label's count. */
  lemma SamplesFitExists(net: Scaffold, expanded: seq<string>, fraction: Option<real>, count: Option<int>)
    ensures SamplesFit(net, expanded, fraction, count, FirstPositions(net, expanded, fraction, count))
  {
    forall i | 0 <= i < |expanded|
      ensures var total := |net.labelled(expanded[i])|;
              IsSample(FirstPositions(net, expanded, fraction, count)[i], total, LabelCount(fraction, count, total))
    {
      var total := |net.labelled(expanded[i])|;
      SampleExists(total, LabelCount(fraction, count, total));
    }
  }

  /** For every expanded label, the first `count` positions of its members. */
  function FirstPositions(net: Scaffold, expanded: seq<string>, fraction: Option<real>, count: Option<int>)
    : (r: seq<seq<nat>>)
    ensures |r| == |expanded|
    ensures forall i :: 0 <= i < |expanded| ==>
              r[i] == Positions(LabelCount(fraction, count, |net.labelled(expanded[i])|))
  {
    seq(|expanded|, i requires 0 <= i < |expanded| =>
      Positions(LabelCount(fraction, count, |net.labelled(expanded[i])|)))
  }

  /** The members each expanded label contributes. */
  function Contributions(net: Scaffold, expanded: seq<string>, samples: seq<seq<nat>>): (r: seq<seq<int>>)
    requires |samples| == |expanded|
    requires forall i :: 0 <= i < |expanded| ==> IndicesBelow(samples[i], |net.labelled(expanded[i])|)
    ensures |r| == |expanded|
  {
    seq(|expanded|, i requires 0 <= i < |expanded| => Pick(net.labelled(expanded[i]), samples[i]))
  }

  /** Counts of the expanded labels. */
  function LabelCounts(net: Scaffold, expanded: seq<string>, fraction: Option<real>, count: Option<int>): (r: seq<int>)
    ensures |r| == |expanded|
  {
    seq(|expanded|, i requires 0 <= i < |expanded| => LabelCount(fraction, count, |net.labelled(expanded[i])|))
  }

  /** Where the contribution of expanded label `i` starts in the by-label result: after
      the counts of the labels before it. */
  function LabelOffset(net: Scaffold, expanded: seq<string>, fraction: Option<real>, count: Option<int>,
                       i: nat): int
    requires i <= |expanded|
  {
    Sum(LabelCounts(net, expanded, fraction, count)[..i])
  }

  /** In `r`, the slice of label `i` (its count of ids, after the counts of the labels
      before it) is exactly that label's draw. */
  predicate SliceIsDraw(net: Scaffold, expanded: seq<string>, fraction: Option<real>, count: Option<int>,
                        samples: seq<seq<nat>>, r: seq<int>, i: nat)
    requires SamplesFit(net, expanded, fraction, count, samples)
    requires i < |expanded|
  {
    var o := LabelOffset(net, expanded, fraction, count, i);
    var n := LabelCount(fraction, count, |net.labelled(expanded[i])|);
    && 0 <= o && o + n <= |r|
    && r[o..o + n] == Pick(net.labelled(expanded[i]), samples[i])
  }

  /** The by-label strategy with an integer count: the contributions of the expanded
      labels, concatenated in label order without removing repeats. It draws as many ids
      as the clamped counts add up to, each a member of one of the expanded labels, and
      label `i`'s draw fills the slice that starts after the counts of the labels before it. */
  function ByLabel(net: Scaffold, labels: seq<string>, fraction: Option<real>, count: Option<int>,
                   samples: seq<seq<nat>>): (r: seq<int>)
    requires SamplesFit(net, ExpandLabels(net, labels), fraction, count, samples)
    ensures |r| == Sum(LabelCounts(net, ExpandLabels(net, labels), fraction, count))
    ensures forall x :: x in r ==> exists i :: 0 <= i < |ExpandLabels(net, labels)|
                                               && x in net.labelled(ExpandLabels(net, labels)[i])
    ensures forall i :: 0 <= i < |ExpandLabels(net, labels)| ==>
              SliceIsDraw(net, ExpandLabels(net, labels), fraction, count, samples, r, i)
  {
    var expanded := ExpandLabels(net, labels);
    var parts := Contributions(net, expanded, samples);
    FlattenLength(parts);
    assert Lengths(parts) == LabelCounts(net, expanded, fraction, count);
    forall i | 0 <= i < |expanded|
      ensures SliceIsDraw(net, expanded, fraction, count, samples, Flatten(parts), i)
    {
      PickSpec(net.labelled(expanded[i]), samples[i]);
      FlattenSlice(parts, i);
    }
    forall x | x in Flatten(parts)
      ensures exists i :: 0 <= i < |expanded| && x in net.labelled(expanded[i])
    {
      FlattenMembers(parts, x);
      var i :| 0 <= i < |parts| && x in parts[i];
      PickSpec(net.labelled(expanded[i]), samples[i]);
    }
    Flatten(parts)
  }

  /** The result is as long as the clamped counts together; every id belongs to one
      of the expanded labels; each label contributes exactly its count, at most its
      population, all of them members of the label, and pairwise different when the
      label lists no id twice; and the contributions follow one another in label order,
      label `i`'s filling the slice after the counts of the labels before it. */
  lemma ByLabelSpec(net: Scaffold, labels: seq<string>, fraction: Option<real>, count: Option<int>,
                    samples: seq<seq<nat>>)
    requires SamplesFit(net, ExpandLabels(net, labels), fraction, count, samples)
    ensures var expanded := ExpandLabels(net, labels);
            var r := ByLabel(net, labels, fraction, count, samples);
            && |r| == Sum(LabelCounts(net, expanded, fraction, count))
            && (forall x :: x in r ==> exists i :: 0 <= i < |expanded| && x in net.labelled(expanded[i]))
    ensures var expanded := ExpandLabels(net, labels);
            var parts := Contributions(net, expanded, samples);
            forall i :: 0 <= i < |expanded| ==>
              var members := net.labelled(expanded[i]);
              && |parts[i]| == LabelCount(fraction, count, |members|) <= |members|
              && (forall x :: x in parts[i] ==> x in members)
              && (Distinct(members) ==> Distinct(parts[i]))
    ensures var expanded := ExpandLabels(net, labels);
            var r := ByLabel(net, labels, fraction, count, samples);
            forall i :: 0 <= i < |expanded| ==> FillsLabelSlice(net, expanded, fraction, count, r, i)
  {
    var expanded := ExpandLabels(net, labels);
    var parts := Contributions(net, expanded, samples);
    forall i | 0 <= i < |expanded|
      ensures var members := net.labelled(expanded[i]);
              && |parts[i]| == LabelCount(fraction, count, |members|) <= |members|
              && (forall x :: x in parts[i] ==> x in members)
              && (Distinct(members) ==> Distinct(parts[i]))
    {
      PickSpec(net.labelled(expanded[i]), samples[i]);
    }
    var r := ByLabel(net, labels, fraction, count, samples);
    forall i | 0 <= i < |expanded|
      ensures FillsLabelSlice(net, expanded, fraction, count, r, i)
    {
      ByLabelPart(net, labels, fraction, count, samples, i);
    }
  }

  /** In `r`, the slice of label `i` (its count of ids, after the counts of the labels
      before it) lies within `r` and holds members of that label only, pairwise different
      when the label lists no id twice; the count never exceeds the label's population. */
  predicate FillsLabelSlice(net: Scaffold, expanded: seq<string>, fraction: Option<real>, count: Option<int>,
                            r: seq<int>, i: nat)
    requires i < |expanded|
  {
    var members := net.labelled(expanded[i]);
    var o := LabelOffset(net, expanded, fraction, count, i);
    var n := LabelCount(fraction, count, |members|);
    && 0 <= o <= o + n <= |r| && n <= |members|
    && (forall x :: x in r[o..o + n] ==> x in members)
    && (Distinct(members) ==> Distinct(r[o..o + n]))
  }

  /** The slice of the by-label result that label `i` fills holds its count of members
      of that label, pairwise different when the label lists no id twice. */
  lemma ByLabelPart(net: Scaffold, labels: seq<string>, fraction: Option<real>, count: Option<int>,
                    samples: seq<seq<nat>>, i: nat)
    requires SamplesFit(net, ExpandLabels(net, labels), fraction, count, samples)
    requires i < |ExpandLabels(net, labels)|
    ensures FillsLabelSlice(net, ExpandLabels(net, labels), fraction, count,
                            ByLabel(net, labels, fraction, count, samples), i)
  {
    var expanded := ExpandLabels(net, labels);
    var members := net.labelled(expanded[i]);
    PickSpec(members, samples[i]);
    assert SliceIsDraw(net, expanded, fraction, count, samples, ByLabel(net, labels, fraction, count, samples), i);
  }

  /** By-label as the code is written: a float count on any expanded label raises. */
  function ByLabelAsWritten(net: Scaffold, labels: seq<string>, fraction: Option<real>, count: Option<int>,
                            samples: seq<seq<nat>>): (r: Outcome)
    requires SamplesFit(net, ExpandLabels(net, labels), fraction, count, samples)
    ensures var expanded := ExpandLabels(net, labels);
            r.Raised? <==> exists i :: 0 <= i < |expanded|
                             && LabelCountAsWritten(fraction, count, |net.labelled(expanded[i])|).Failure?
    ensures r.Raised? ==> r.error == TypeError(FloatCountMessage)
    ensures r.Targets? ==> r.ids == ByLabel(net, labels, fraction, count, samples)
    ensures !r.Raised? ==> r == Targets(ByLabel(net, labels, fraction, count, samples))
  {
    var expanded := ExpandLabels(net, labels);
    if exists i :: 0 <= i < |expanded| && LabelCountAsWritten(fraction, count, |net.labelled(expanded[i])|).Failure? then
      Raised(TypeError(FloatCountMessage))
    else
      Targets(ByLabel(net, labels, fraction, count, samples))
  }

  /** A fraction in (0, 1] on a non-empty label always makes the code raise; the
      integer count is the least whole number covering the fraction. Example: half
      of a four-member label raises, where two members were meant. */
  lemma ByLabelFractionFinding(fraction: real, total: nat)
    requires 0.0 < fraction <= 1.0 && total > 0
    ensures LabelCountAsWritten(Some(fraction), None, total) == Failure(TypeError(FloatCountMessage))
    ensures 0 < LabelCount(Some(fraction), None, total) <= total
  {
    FractionOfTotal(fraction, total);
    var x := fraction * total as real;
    assert x > 0.0 by {
      assert fraction * total as real >= fraction * 1.0;
    }
    var c := Ceil(x);
    assert (c as real) < (total as real) + 1.0;
    assert 0 < c <= total;
  }

  /** Half of a four-member label: the code raises where two members were meant. */
  lemma ByLabelHalfOfFour()
    ensures LabelCountAsWritten(Some(0.5), None, 4) == Failure(TypeError(FloatCountMessage))
    ensures LabelCount(Some(0.5), None, 4) == 2
  {
    assert 0.5 * 4 as real == 2.0;
    assert Ceil(2.0) == 2;
  }
}

=== FILE: wrappers.dfy ===
/** Failure-carrying datatypes shared by every module of the model. */
module Wrappers {

  /** A value that may be absent: Python's `None` or a missing attribute. */
  datatype Option<+T> = None | Some(value: T) {

    /** The wrapped value, or `default` when there is none (`getattr(obj, name, default)`). */
    function GetOr(default: T): T {
      match this
      case Some(v) => v
      case None => default
    }
  }

  /** Either a returned value or a raised exception. */
  datatype Result<+R, +E> = Success(value: R) | Failure(error: E)
}

/** The exceptions raised by the targeting code and the simulator adapter. */
module Errors {

  datatype Error =
    /** An unknown neuron targetting strategy. */
    | NotImplementedError(message: string)
    /** A getter called before the matching `initialise_*`, with the offending rank. */
    | ParallelIntegrityError(message: string, rank: nat)
    /** A gid that no cell model's id ranges contain. */
    | GidLookupError(gid: int)
    /** The plain `Exception` raised for an unknown section targetting strategy. */
    | UnknownSectionTargetting(message: string)
    /** `random.choice` on an empty sequence. */
    | IndexError(message: string)
    /** A float passed where Python needs an integer count. */
    | TypeError(message: string)
    /** Arrays of mismatched widths given to `np.vstack`. */
    | ValueError(message: string)

  /** The message of the `IndexError` from `random.choice` on an empty sequence. Only the
      exception class is certain: this is the wording of Python 3.11 and later, while
      3.9 and 3.10 index the empty sequence and report "list index out of range". */
  const EmptyChoice := "Cannot choose from an empty sequence"
}
